=== FILE: README.md ===
# COVID-19 spending tenders: a Dafny model of the tender pipeline

This project models the core of `covidtenders.py`, the pandas script that turns a
spreadsheet of COVID-19 public procurement (one row per tender, lot, contract
or winning bid) into two published tables:

- the **tender table** (`filter_just_tenders`): one row per tender or contract, with its price
  in euro;
- the **company table** (`filter_just_companies`): one row per winning bid, with the amount the
  supplier won, joined with a hand-cleaned list of supplier names.

Both start from `clean_tender_data`, which:

1. remaps procedure names onto three categories;
2. keeps only in-scope rows;
3. converts prices to euro with `x_to_eur`;
4. strips some names;
5. drops rows that repeat every column except the first.

Modules, in dependency order:

- `Wrappers`: `Option` and `Result`.
- `Text`: the string methods the script calls (`strip`, `replace`, `lower`, `contains`) and
  the `float()` parse of a decimal string.
- `Frames`: the pandas idioms the script uses:
  - boolean indexing (`Filter`, `Where`);
  - `duplicated` and `drop_duplicates` with `keep="first"` or `keep="last"` on a key
    (`Duplicated`, `DropDuplicates`);
  - `groupby(...).count()` (`CountKey`).
- `Records`:
  - a spreadsheet cell as `x_to_eur` sees it: `NaN`, a number, a string, or anything else;
  - the row of the tender spreadsheet; text columns are `Option<string>`, where `None` is a
    missing cell.
- `Currency`: `x_to_eur` and the `pd.to_numeric(..., errors="coerce")` that follows it.
- `Cleaning`: `clean_tender_data`.
- `Tenders`: `filter_just_tenders`.
- `Companies`: `filter_just_companies`, steps 1.1 to 1.5 and the supplier join.

A table is a sequence of rows. In the company table, the model labels each cleaned row by
its position in the cleaned table, where pandas keeps the labels of the frame it was given.
The model assumes those labels are unique and increase with row order (see "## Left out"). The
`price_contract_EUR` Series is a sequence of (label, amount) pairs, appended stage after stage
exactly as the script appends to it.

## Model

| member | source | states |
|---|---|---|
| Currency.XToEur | covidtenders.py:11-65 | a filled-in `price_EUR` is returned unchanged; otherwise a number is multiplied by the rate of its currency, a string is multiplied after dropping commas and surrounding whitespace and parsing, an unknown currency, an unparseable string or any other value gives `""`, and a missing price with a known currency stays missing |
| Currency.ToNumeric | covidtenders.py:99-100 | `to_numeric` with `errors="coerce"`: the result is a number or missing; numbers are kept; a string becomes the number it parses to, or missing when it does not parse |
| Currency.ToNumericReadsBack | covidtenders.py:99-100 | a whole number written as digits coerces back to that number, and coercing a coerced cell changes nothing |
| Currency.EurColumn | covidtenders.py:99-100 | a derived `price_EUR` or `price_lot_EUR` cell is a number or missing, and an already filled-in euro number is kept as it is |
| Currency.XToEurIdempotent | covidtenders.py:44-65 | running the conversion again on its own result changes nothing |
| Currency.SameCleanTextSameResult | covidtenders.py:53-54 | two price strings with the same comma-free, stripped text convert identically |
| Currency.ThousandsSeparatorsIgnored | covidtenders.py:53 | commas anywhere in a price string never change the outcome |
| Currency.SurroundingSpaceIgnored | covidtenders.py:53 | surrounding whitespace on any price string, thousands separators included, never changes the outcome |
| Currency.PaddingIgnored | covidtenders.py:53 | removing commas from a price string and stripping it gives the same text whether or not the string was stripped first |
| Currency.ShowNatIsClean | covidtenders.py:53 | the decimal digits of a number contain no commas and no surrounding whitespace, so cleaning leaves them unchanged |
| Currency.TextAgreesWithNumber | covidtenders.py:49-56 | a whole number written as digits converts to the same euro amount as the number itself, under any currency cell, known or not |
| Currency.CurrencyNotTrimmed | covidtenders.py:18 | the currency code is looked up verbatim: `"USD "` fails with `""` while `"USD"` converts at 0.873956 |
| Currency.UnknownCurrencyExample | covidtenders.py:60-99 | a currency missing from the table turns into a missing euro price after coercion |
| Currency.AlbanianLekRate | covidtenders.py:25-37 | `ALL` is listed twice and the later rate, 0.00806510, is the one used |
| Text.ParseDecimal | covidtenders.py:53 | a parsed string is non-empty and holds no whitespace or commas; a string of digits parses to its decimal value |
| Text.ShowNatRoundTrip | covidtenders.py:53 | reading back the decimal digits of a number gives the number |
| Text.ParseShowNat | covidtenders.py:53 | parsing the decimal digits of a number gives that number |
| Text.Strip | covidtenders.py:104-105 | the result is the input with its leading and trailing whitespace removed and nothing else; it neither starts nor ends with whitespace |
| Text.StripIdempotent | covidtenders.py:104-105 | stripping twice is stripping once |
| Text.StripUnique | covidtenders.py:104-105 | text made of whitespace, a core that neither starts nor ends with whitespace, and whitespace strips to exactly that core |
| Text.StripPadded | covidtenders.py:104-105 | padding text with whitespace on either side does not change what it strips to |
| Text.RemoveAll | covidtenders.py:53 | `replace(",", "")`: the result keeps every other character, drops every comma, and is shorter by the number of commas |
| Text.RemoveAllCounts | covidtenders.py:53 | after `replace(",", "")` every other character occurs exactly as often as before and commas not at all |
| Text.RemoveAllAppend | covidtenders.py:53 | deleting commas acts piece by piece on concatenated text, so what remains keeps its order |
| Text.Contains | covidtenders.py:157 | a substring test holds exactly when the pattern occurs at some position |
| Frames.Filter | covidtenders.py:134 | boolean indexing with a row predicate: the result holds exactly the rows satisfying it, and no more rows than the input |
| Frames.Where | covidtenders.py:134 | boolean indexing `df[mask]`: the rows at the true positions of the mask, in table order |
| Frames.WhereMembers | covidtenders.py:134 | a row is in `df[mask]` exactly when it stands at a position where the mask is true |
| Frames.FilterIsWhere | covidtenders.py:134 | filtering with a predicate is boolean indexing with its mask, so the kept rows stay in their original order |
| Frames.Duplicated | covidtenders.py:107 | a row is marked duplicate exactly when it is not the first (or last) row carrying its key |
| Frames.Survivors | covidtenders.py:107 | the surviving positions are exactly the first (or last) occurrences of each key, in increasing order |
| Frames.DropDuplicates | covidtenders.py:168 | the result is drawn from the input, is no longer than it, and no two of its rows share a key |
| Frames.DropDuplicatesCovers | covidtenders.py:168 | every key of the input is still carried by some row of the result |
| Frames.DropDuplicatesKeepsSurvivors | covidtenders.py:135 | the result is the input at the surviving positions, in order |
| Frames.DropDuplicatesKeepsSurvivorRows | covidtenders.py:107 | a row is in the result exactly when it stands at the first (or last) position of its key |
| Frames.DropDuplicatesFirst | covidtenders.py:143 | with `keep="first"` every first occurrence of a key is kept, and the result is those occurrences in table order |
| Frames.DropDuplicatesLast | covidtenders.py:135 | with `keep="last"` every last occurrence of a key is kept |
| Frames.CountKeyOne | covidtenders.py:220-221 | a group has size one exactly when a single position carries the key |
| Frames.CountKeyZero | covidtenders.py:220-221 | a group is empty exactly when no row carries the key |
| Frames.FilterKeepsDistinct | covidtenders.py:251-252 | boolean indexing never makes two rows share a key |
| Cleaning.RemapProcedure | covidtenders.py:69-84 | each of the twelve listed procedure names becomes one of the three categories; any other value, missing included, is kept |
| Cleaning.CanonicalNotRemapped | covidtenders.py:71-84 | the three categories are not themselves remapped, and every target is a category |
| Cleaning.RemapIdempotent | covidtenders.py:86 | remapping a remapped value changes nothing |
| Cleaning.NormalizeCleans | covidtenders.py:96-105 | an in-scope row comes out with numeric-or-missing euro prices and stripped source, buyer and supplier |
| Cleaning.Prepared | covidtenders.py:86-105 | the rows kept are the in-scope input rows, in input order, each remapped, converted and stripped: boolean indexing with the scope mask followed by the row-wise steps; each comes from an in-scope input row, and there are no more of them than input rows |
| Cleaning.PreparedKeepsInScope | covidtenders.py:90-105 | every in-scope input row is kept, normalised |
| Cleaning.ScopeIgnoresProcedure | covidtenders.py:86-95 | the scope filter does not read the procedure column, so remapping before filtering does not change which rows pass |
| Cleaning.CleanTenderData | covidtenders.py:66-109 | the cleaned table is no longer than the input, every row is clean, no two rows agree on every column but the first, and each row is the first prepared row of its group |
| Cleaning.CleanTenderDataKeepsFirst | covidtenders.py:107 | the first row of each group of rows agreeing on every column but `ID` is kept whole, with its own `ID`, and the cleaned table is exactly those rows in prepared order |
| Cleaning.CleanedRowsComeFromInput | covidtenders.py:90-95 | every cleaned row is the normalisation of an input row that passes the scope filter (year 2020, COVID product, live tender type, not cancelled) |
| Cleaning.InScopeRowsRepresented | covidtenders.py:107 | every in-scope input row is represented by a cleaned row equal to it on every column but the first |
| Cleaning.ScopeExamples | covidtenders.py:90-95 | a 2019 row and a "Not Covid19 Related" row are excluded, an active 2020 row about masks is kept |
| Tenders.Slice | covidtenders.py:134-157 | each slice holds exactly the cleaned rows satisfying its mask, in table order |
| Tenders.TedRows | covidtenders.py:134-135 | each TED row kept is drawn from the TED slice and stands at the last position of its `TED_id` there |
| Tenders.TedRowsDeduplicated | covidtenders.py:135 | no two kept TED rows share a `TED_id`, the last row of the slice with each `TED_id` is kept, and every TED id of the slice is represented |
| Tenders.ContractRows | covidtenders.py:140-143 | each contract row kept is drawn from the contract-or-Albanian slice and stands at the first position of its (title, price, buyer, date) there |
| Tenders.ContractRowsDeduplicated | covidtenders.py:143 | no two kept contract rows share (title, price, buyer, date), the first row of the slice with each such key is kept, and every such key of the slice is represented |
| Tenders.MacedonianRows | covidtenders.py:149-150 | each Macedonian row kept is drawn from the Macedonian non-contract slice and stands at the last position of its (source, lot) there |
| Tenders.MacedonianRowsDeduplicated | covidtenders.py:150 | no two kept Macedonian rows share (source, lot), the last row of the slice with each such key is kept, and every such key of the slice is represented |
| Tenders.OtherRows | covidtenders.py:157-159 | each remaining row kept is drawn from the non-TED, non-contract slice of neither exception country and stands at the last position of its (price, source) there |
| Tenders.OtherRowsDeduplicated | covidtenders.py:159 | no two kept remaining rows share (price, source), the last row of the slice with each such key is kept, and every such key of the slice is represented |
| Tenders.Combined | covidtenders.py:165 | the concatenated slices only hold cleaned rows |
| Tenders.FinalTable | covidtenders.py:168-177 | the table has no more rows than the concatenated slices, and each of its rows is the projection of the first concatenated row carrying its (title, price_EUR, source) |
| Tenders.FinalTableKeepsFirst | covidtenders.py:168-177 | the first concatenated row of every (title, price_EUR, source) is published, projected |
| Tenders.Project | covidtenders.py:170-177 | `keep_columns` keeps the three columns the final deduplication keys on |
| Tenders.FinalTableDistinct | covidtenders.py:168 | no two rows of the table share (title, price_EUR, source) |
| Tenders.FinalTableFromRows | covidtenders.py:168-177 | each row of the table is the `keep_columns` projection of a concatenated row |
| Tenders.FinalTableCovers | covidtenders.py:168 | every concatenated row's (title, price_EUR, source) is represented in the result |
| Tenders.FilterJustTenders | covidtenders.py:111-177 | the function fails exactly when a cleaned row has no buyer country, which is where the `str.contains` mask raises |
| Tenders.FilterJustTendersSound | covidtenders.py:111-177 | a successful run publishes no two rows sharing (title, price_EUR, source), and each row is the `keep_columns` projection of an in-scope input row after cleaning |
| Tenders.TenderTable | covidtenders.py:165-177 | no two published rows share (title, price_EUR, source) |
| Tenders.TendersComeFromCleanedRows | covidtenders.py:165-177 | every tender row is the projection of a cleaned row |
| Tenders.TableRowFromCleanedRow | covidtenders.py:165-177 | one tender row is the projection of some cleaned row |
| Tenders.TwoLetterMention | covidtenders.py:157 | a two-letter country code matches `MK\|AL` exactly when it is `MK` or `AL` |
| Tenders.SlicesCoverEveryRow | covidtenders.py:134-159 | with two-letter country codes every cleaned row lies in at least one slice |
| Tenders.LongCodeFallsThrough | covidtenders.py:157 | a non-TED, non-contract row from `MKD` lies in no slice |
| Tenders.TedContractInTwoSlices | covidtenders.py:134-141 | the slices overlap: a TED row typed contract is in both the TED and the contract slice |
| Companies.MatchKeyOf | covidtenders.py:217-237 | a row has a group key for a stage exactly when its identifier column is filled in |
| Companies.CollectFacts | covidtenders.py:211 | `df.loc[mask, column]` holds exactly the selected positions, in table order, each with its own amount |
| Companies.ContractSeries | covidtenders.py:210-211 | step 1.1 appends every contract row, with its `price_EUR` whether present or missing, once each |
| Companies.Stage | covidtenders.py:214-242 | a stage only appends to the Series, and its labels stay unique |
| Companies.StagePicks | covidtenders.py:217-242 | each appended row is an unresolved row with its identifier filled in, a single-win key and a present stage price, which is the amount appended; every such row is appended |
| Companies.SeriesAfter | covidtenders.py:207-242 | after step 1.1 and each of the four stages, no label occurs twice in the Series |
| Companies.ToMap | covidtenders.py:246 | aligning the Series to the table gives each label the amount appended with it, and nothing else |
| Companies.SeriesGrows | covidtenders.py:211-242 | each step only appends: earlier Series are prefixes of later ones |
| Companies.ResolutionKeepsStage | covidtenders.py:246 | the aligned column holds whatever any stage appended |
| Companies.SingleWinMeansOneAwardedRow | covidtenders.py:220-221 | a key is single-win exactly when one unresolved awarded row with a product carries it |
| Companies.ContractPriceKept | covidtenders.py:211 | a contract row keeps its own `price_EUR`, present or missing |
| Companies.StagePriceKept | covidtenders.py:227-242 | a row resolved by a stage gets that stage's price, `price_EUR` for whole tenders and `price_lot_EUR` for lots, and it is present |
| Companies.EveryRowOfSingleWinKeyPriced | covidtenders.py:227 | every unresolved row carrying a single-win key with a price gets its own price, not only the awarded row |
| Companies.EarlierStagesExcluded | covidtenders.py:217-234 | a row resolved by step 1.1 or by a stage is not picked by any later stage |
| Companies.LaterPoolsExclude | covidtenders.py:217-234 | a label already in the Series is out of every later stage's pool |
| Companies.PickedInOwnSeries | covidtenders.py:227-242 | a row a stage resolves is in the Series after that stage |
| Companies.NewLabelPicked | covidtenders.py:227-242 | a label that first appears after a stage was picked by that stage |
| Companies.LabelsGrow | covidtenders.py:211-242 | labels only accumulate from one step to the next |
| Companies.ResolvedRowsAccounted | covidtenders.py:207-246 | a row has an aligned amount only if it is a contract or one of the four stages picked it |
| Companies.MissingAmountOnlyFromContracts | covidtenders.py:211 | a label carrying a missing amount is a contract row without a price |
| Companies.GroupMembers | covidtenders.py:246-252 | a winning-bid row has a present aligned amount; an unresolved row's label never entered the Series; each is the projection of its cleaned row |
| Companies.EveryRowGrouped | covidtenders.py:251-252 | every cleaned row is a winning bid, or unresolved, or a contract with a missing price that appears in neither table |
| Companies.FallbackRule | covidtenders.py:259-261 | the fallback holds exactly the unresolved rows whose title is unique, with `price_EUR` as their amount |
| Companies.UniqueTitleMeansNoOther | covidtenders.py:259-260 | a title is unique among unresolved rows exactly when it is present and no other unresolved row has it |
| Companies.FallbackRowsStayMissing | covidtenders.py:251-263 | every fallback row is still in the unresolved table |
| Companies.NoDoubleCounting | covidtenders.py:252-263 | the winning bids and the unresolved table each hold a label at most once |
| Companies.Join | covidtenders.py:307 | every joined pair combines a winning bid and a company row with the same supplier |
| Companies.JoinComplete | covidtenders.py:307 | every winning bid and company row with the same supplier are joined, missing matching missing |
| Companies.FilterJustCompanies | covidtenders.py:180-314 | unresolved rows are projections of cleaned rows with no amount, and every joined pair combines a winning bid with a company row sharing its supplier |

## Left out

- Printing, reading the CSV files and the optional steps the script has commented out
  (lines 268-304) are not modelled. The deduplicated company file is a parameter of
  `FilterJustCompanies`.
- `clean_unitprices` is outside the modelled core.
- Floating point is modelled with exact reals: rates, products and parsed prices are exact.
- `float()` is modelled on signed decimal strings only. Exponents, `inf`, `nan` and
  underscores are not parsed. Booleans are not treated as numbers.
- `str.lower` is modelled on ASCII letters only. `str.strip` removes exactly the characters
  for which Python's `str.isspace` holds.
- The year column is typed as a number or missing. The script's `pd.to_numeric` without
  `errors="coerce"` raises on a non-numeric year, which the model does not represent.
- Text.Contains: `contains("MK|AL")` is a regular expression. The model checks the two
  literal alternatives, which is all the pattern can match.
- Step 1.3 keys lots on the string `f'{id}-{lot}'`. The model uses the (id, lot) pair, so
  the string's collisions are not modelled. Examples are an id containing `-`, or a lot
  literally named `nan` next to a missing lot.
- The row order of `pd.merge` beyond "bids in order, then company rows in order" is not
  modelled. Column order of projected tables is not modelled either.
- `set_index("ID")` is modelled by keeping `ID` in each row next to the original label.
- Companies.FilterJustCompanies: the joined pairs keep each bid's label and `ID`. The merge
  at line 307 joins column on column, which drops both indexes, so the script's joined table
  has neither `ID` nor the original label. The model does not drop them.
- The model assumes the index labels of the frame given to the script are unique and
  increase with row order, as a fresh `read_csv` gives them, and labels cleaned rows by
  position. With a repeated label the script behaves differently: the alignment at line 246
  copies one amount to every row with that label, and the `isin` tests at lines 217, 234
  and 251 exclude all of those rows. The model does not represent this.
- The model assumes `ID` is the sheet's first column, so that `alldata.columns[1:]` at
  line 107 names every column but `ID`.
- Cleaning.CleanTenderData: the model assumes the sheet holds exactly the columns `Row`
  lists. Line 107 compares every column after the first. With any extra column, two rows
  that differ only there are both kept by the script but merged into one by the model.
- Cleaning.RemapProcedure: `filter_just_tenders` (line 128) and `filter_just_companies`
  (line 202) each call `clean_tender_data` on the caller's frame, and line 86 rewrites that
  frame's `procedure` column in place. The second call therefore sees remapped values. The
  model does not represent the aliasing. It is harmless: remapping a remapped value changes
  nothing (see `Cleaning.RemapIdempotent` and `Cleaning.CanonicalNotRemapped`).
- The currency code is looked up verbatim: line 18 strips only the column name, not the
  cell (see `Currency.CurrencyNotTrimmed`).
- The four tender slices overlap, and only the final deduplication resolves overlaps (see
  `Tenders.TedContractInTwoSlices`).
- Currency.ToNumeric: `pd.to_numeric(..., errors="coerce")` at lines 99-100 is modelled
  with the same decimal parse as `float()`. It does not skip surrounding whitespace or read
  exponents or `inf`. A filled-in euro cell such as `" 12 "` or `"1e3"` therefore becomes
  missing in the model, where the script reads 12.0 or 1000.0.
- Cleaning.CleanTenderData: when no row is in scope, `alldata.apply(..., axis=1)` at line 99
  returns an empty DataFrame and `pd.to_numeric` raises a TypeError, so both top-level
  functions raise. The model returns an empty cleaned table instead; for example,
  `FilterJustTenders([])` is a `Success` with an empty table.
- Companies.Stage: when a step-1.3 pool `T` is empty, `T.apply(...)` at line 237 returns a
  DataFrame and the assignment to `T["match"]` raises a ValueError. The model's stage
  appends nothing and carries on.
- Tenders.FilterJustTenders: the error raised on a missing buyer country is modelled as a
  `Failure` result, not as an exception.
- Companies.FilterJustCompanies: its own contract covers provenance and the join. The
  cascade, partition and fallback properties are stated by the `Companies` lemmas above.

=== FILE: cleaning.dfy ===
/**
 `clean_tender_data`: procedure remapping, the 2020 / COVID-19 scope filter,
 the derived euro columns, whitespace stripping of three identity columns,
 and removal of rows that repeat an earlier row in every column but `ID`.
 */
module Cleaning {
  import opened Wrappers
  import opened Text
  import opened Records
  import opened Currency
  import opened Frames

  /** The three procedure categories the analysis uses. */
  const Canonical: set<string> := {"open competition", "closed competition", "direct award"}

  /** `proc_map`: free-text procedure labels of the national sources onto the three categories. */
  const ProcedureMap: map<string, string> := map[
    "Open procedure" := "open competition",
    "Competitive dialogue" := "open competition",
    "Restricted procedure" := "open competition",
    "Restricted procedure (OJEU)" := "open competition",
    "Open procedure (OJEU)" := "open competition",
    "Competitive procedure with negotiation" := "closed competition",
    "Negotiated procedure" := "closed competition",
    "Contract award without prior publication" := "direct award",
    "Negotiated without a call for competition" := "direct award",
    "Contract award without notice" := "direct award",
    "Negotiated without a prior call for competition" := "direct award",
    "Negociado sin publicidad" := "direct award"]

  /** No category is itself a label to be remapped. */
  lemma CanonicalNotRemapped()
    ensures forall c :: c in Canonical ==> c !in ProcedureMap
    ensures forall k :: k in ProcedureMap ==> ProcedureMap[k] in Canonical
  {
  }

  /** `Series.replace(proc_map)` on one cell: listed labels become their category, anything else is kept. */
  function RemapProcedure(p: Option<string>): (r: Option<string>)
    ensures p.Some? && p.value in ProcedureMap ==> r.Some? && r.value in Canonical
    ensures !(p.Some? && p.value in ProcedureMap) ==> r == p
    ensures r.Some? ==> r.value !in ProcedureMap
  {
    CanonicalNotRemapped();
    if p.Some? && p.value in ProcedureMap then Some(ProcedureMap[p.value]) else p
  }

  /** Remapping twice is remapping once, since no category is a listed label. */
  lemma RemapIdempotent(p: Option<string>)
    ensures RemapProcedure(RemapProcedure(p)) == RemapProcedure(p)
  {
    CanonicalNotRemapped();
  }

  /**
   The scope filter: year 2020, a product category that is present and not
   "not covid19 related", a type that is not "call for tender" or
   "duplicate", and a status that is not "cancelled", all compared in lower
   case. A missing type or status compares unequal to every string, so it
   passes.
   */
  predicate InScope(r: Row) {
    && r.year == Some(2020.0)
    && r.product.Some? && Lower(r.product.value) != "not covid19 related"
    && (r.kind.None? || (Lower(r.kind.value) != "call for tender" && Lower(r.kind.value) != "duplicate"))
    && (r.status.None? || Lower(r.status.value) != "cancelled")
  }

  /** `str.strip()` on a text cell; NaN stays NaN. */
  function StripCell(c: Option<string>): (r: Option<string>)
    ensures r.None? <==> c.None?
    ensures r.Some? ==> Strip(r.value) == r.value
  {
    if c.Some? then StripIdempotent(c.value); Some(Strip(c.value)) else None
  }

  /** Step 1: the procedure column remapped. */
  function WithProcedure(r: Row): Row {
    r.(procedure := RemapProcedure(r.procedure))
  }

  /** Step 3: `price_EUR` and `price_lot_EUR` derived with `x_to_eur` and coerced to numbers. */
  function WithEur(r: Row): Row {
    r.(priceEur := EurColumn(r.price, r.priceCurrency, r.priceEur),
       priceLotEur := EurColumn(r.priceLot, r.priceLotCurrency, r.priceLotEur))
  }

  /** Step 4: `source`, `buyer` and `supplier` stripped. */
  function WithStrippedNames(r: Row): Row {
    r.(source := StripCell(r.source), buyer := StripCell(r.buyer), supplier := StripCell(r.supplier))
  }

  /** Everything `clean_tender_data` does to a single row it keeps. */
  function Normalize(r: Row): Row {
    WithStrippedNames(WithEur(WithProcedure(r)))
  }

  /** The shape every cleaned row has. */
  predicate Cleaned(r: Row) {
    && InScope(r)
    && (r.priceEur.NaN? || r.priceEur.Num?)
    && (r.priceLotEur.NaN? || r.priceLotEur.Num?)
    && (r.source.None? || Strip(r.source.value) == r.source.value)
    && (r.buyer.None? || Strip(r.buyer.value) == r.buyer.value)
    && (r.supplier.None? || Strip(r.supplier.value) == r.supplier.value)
    && (r.procedure.None? || r.procedure.value !in ProcedureMap)
  }

  /** A normalized in-scope row has the cleaned shape. */
  lemma NormalizeCleans(r: Row)
    requires InScope(r)
    ensures Cleaned(Normalize(r))
  {
    CanonicalNotRemapped();
  }

  /** The scope filter does not read the procedure column, so remapping first does not change it. */
  lemma ScopeIgnoresProcedure(r: Row)
    ensures InScope(WithProcedure(r)) == InScope(r)
  {
  }

  /**
   Steps 1 to 4, before the duplicate removal: the rows that pass the scope
   filter, in their order, each remapped, given its euro columns and
   stripped. The steps act row by row and the filter does not read the
   procedure column, so filtering first gives the rows the column-wise
   steps of `covidtenders.py` produce.
   */
  function Prepared(raw: seq<Row>): (rows: seq<Row>)
    ensures |rows| <= |raw|
    ensures forall y :: y in rows ==> exists x :: x in raw && InScope(x) && y == Normalize(x)
    ensures rows == Map(Where(raw, Mask(raw, InScope)), Normalize)
  {
    FilterIsWhere(raw, InScope);
    MapFilterFrom(raw, InScope, Normalize);
    Map(Filter(raw, InScope), Normalize)
  }

  /** Every in-scope input row is kept, normalized. */
  lemma PreparedKeepsInScope(raw: seq<Row>)
    ensures forall x :: x in raw && InScope(x) ==> Normalize(x) in Prepared(raw)
  {
    MapFilterCovers(raw, InScope, Normalize);
  }

  /**
   `clean_tender_data(alldata)`. Every row it returns has the cleaned shape
   (in scope, numeric euro columns, stripped names, remapped procedure), and
   no two returned rows agree on every column except `ID`.
   */
  function CleanTenderData(raw: seq<Row>): (df: seq<Row>)
    ensures |df| <= |raw|
    ensures forall y :: y in df ==> Cleaned(y)
    ensures forall a, b :: 0 <= a < b < |df| ==> WithoutId(df[a]) != WithoutId(df[b])
    ensures FromSurvivors(Prepared(raw), WithoutId, First, df)
  {
    var rows := Prepared(raw);
    var df := DropDuplicates(rows, WithoutId, First);
    CleanedRows(raw, rows, df);
    DropDuplicatesKeepsSurvivorRows(rows, WithoutId, First);
    df
  }

  /**
   Line 107 keeps, of each group of prepared rows that agree on every column
   but `ID`, the first one, whole and with its own `ID`, and it keeps the
   prepared order.
   */
  lemma CleanTenderDataKeepsFirst(raw: seq<Row>)
    ensures forall i :: 0 <= i < |Prepared(raw)| && IsFirst(Prepared(raw), WithoutId, i) ==>
      Prepared(raw)[i] in CleanTenderData(raw)
    ensures var df := CleanTenderData(raw); var rows := Prepared(raw); var p := Survivors(rows, WithoutId, First);
      |df| == |p| && forall k :: 0 <= k < |df| ==> df[k] == rows[p[k]]
  {
    var rows := Prepared(raw);
    assert CleanTenderData(raw) == DropDuplicates(rows, WithoutId, First);
    DropDuplicatesFirst(rows, WithoutId);
  }

  /** Every cleaned row is an in-scope input row, normalized. */
  lemma CleanedRowsComeFromInput(raw: seq<Row>)
    ensures forall y :: y in CleanTenderData(raw) ==> exists x :: x in raw && InScope(x) && y == Normalize(x)
  {
    var rows := Prepared(raw);
    assert forall y :: y in CleanTenderData(raw) ==> y in rows;
  }

  /**
   Every in-scope input row is still represented, up to its `ID`, by a
   cleaned row: the first of the rows it duplicates.
   */
  lemma InScopeRowsRepresented(raw: seq<Row>)
    ensures forall x :: x in raw && InScope(x) ==>
      exists y :: y in CleanTenderData(raw) && WithoutId(y) == WithoutId(Normalize(x))
  {
    var rows := Prepared(raw);
    var df := DropDuplicates(rows, WithoutId, First);
    assert df == CleanTenderData(raw);
    PreparedKeepsInScope(raw);
    forall x | x in raw && InScope(x) ensures exists y :: y in df && WithoutId(y) == WithoutId(Normalize(x)) {
      DropDuplicatesCoversRow(rows, WithoutId, First, Normalize(x));
    }
  }

  lemma CleanedRows(raw: seq<Row>, rows: seq<Row>, df: seq<Row>)
    requires forall y :: y in rows ==> exists x :: x in raw && InScope(x) && y == Normalize(x)
    requires forall y :: y in df ==> y in rows
    ensures forall y :: y in df ==> Cleaned(y) && exists x :: x in raw && InScope(x) && y == Normalize(x)
  {
    forall y | y in df ensures Cleaned(y) && exists x :: x in raw && InScope(x) && y == Normalize(x) {
      var x :| x in raw && InScope(x) && y == Normalize(x);
      NormalizeCleans(x);
    }
  }

  /** The scope examples: 2019 is out; the sentinel category is out in any case; masks in 2020 are in. */
  lemma ScopeExamples(r: Row)
    ensures r.year == Some(2019.0) ==> !InScope(r)
    ensures r.product == Some("Not Covid19 Related") ==> !InScope(r)
    ensures r.year == Some(2020.0) && r.product == Some("masks") && r.kind.None? && r.status == Some("Active")
      ==> InScope(r)
  {
    assert Lower("Not Covid19 Related") == "not covid19 related";
    assert Lower("masks") == "masks";
    assert Lower("Active") == "active";
  }
}

=== FILE: companies.dfy ===
/**
 `filter_just_companies`, steps 1.1 to 1.5 and the supplier join: resolve an
 awarded amount for each cleaned row through a cascade of stages, each of
 which only looks at rows no earlier stage resolved, then fall back to
 unique titles, then join the winning bids with the supplier table.

 The amounts are gathered as a pandas Series: (index label, amount) pairs
 appended stage after stage. The model labels each cleaned row by its
 position in the cleaned table; pandas keeps the labels of the frame it was
 given. The model assumes those are unique and increase with row order.
 */
module Companies {
  import opened Wrappers
  import opened Records
  import opened Frames
  import opened Cleaning

  /** The two identifier columns the single-win stages key on. */
  datatype IdColumn = TedId | ContractNumber

  function IdOf(c: IdColumn, r: Row): Option<string> {
    if c == TedId then r.tedId else r.contractNumber
  }

  /** Step 1.2 matches on the identifier alone, step 1.3 on identifier and lot. */
  datatype Granularity = WholeTender | PerLot

  /** A group key; `f'{id}-{lot}'` is taken as the pair it is built from. */
  datatype MatchKey = Whole(id: string) | WithLot(id: string, lot: Option<string>)

  /** The group a row falls in for a stage, if its identifier column is filled in. */
  function MatchKeyOf(c: IdColumn, g: Granularity, r: Row): (k: Option<MatchKey>)
    ensures k.Some? <==> IdOf(c, r).Some?
  {
    if IdOf(c, r).None? then None
    else if g == WholeTender then Some(Whole(IdOf(c, r).value))
    else Some(WithLot(IdOf(c, r).value, r.lot))
  }

  /** The amount a stage assigns: `price_EUR` for a whole tender, `price_lot_EUR` for a lot. */
  function StagePrice(g: Granularity, r: Row): Option<real> {
    AsAmount(if g == WholeTender then r.priceEur else r.priceLotEur)
  }

  /** `price_contract_EUR` while it is being built: (index label, amount) in append order. */
  type Series = seq<(nat, Option<real>)>

  function Labels(s: Series): set<nat> {
    set k | 0 <= k < |s| :: s[k].0
  }

  /** No index label occurs twice, so aligning the Series to the table is well defined. */
  predicate UniqueLabels(s: Series) {
    forall a, b :: 0 <= a < b < |s| ==> s[a].0 != s[b].0
  }

  /** `s` is a prefix of `r`. */
  predicate Extends(r: Series, s: Series) {
    |s| <= |r| && forall k :: 0 <= k < |s| ==> r[k] == s[k]
  }

  /** Labels appended in table order. */
  predicate Ascending(s: Series) {
    forall a, b :: 0 <= a < b < |s| ==> s[a].0 < s[b].0
  }

  lemma LabelsAppend(a: Series, b: Series)
    ensures Labels(a + b) == Labels(a) + Labels(b)
  {
    var r := a + b;
    forall i | i in Labels(a) ensures i in Labels(r) {
      var k :| 0 <= k < |a| && a[k].0 == i;
      assert r[k] == a[k];
    }
    forall i | i in Labels(b) ensures i in Labels(r) {
      var k :| 0 <= k < |b| && b[k].0 == i;
      assert r[|a| + k] == b[k];
    }
    forall i | i in Labels(r) ensures i in Labels(a) + Labels(b) {
      var k :| 0 <= k < |r| && r[k].0 == i;
      if k < |a| {
        assert r[k] == a[k];
      } else {
        assert r[k] == b[k - |a|];
      }
    }
  }

  /**
   `df.loc[mask, column]` as a Series: label and amount of every position
   below `n` that `want` selects, in table order.
   */
  function Collect(n: nat, want: nat -> bool, amount: nat -> Option<real>): Series {
    if n == 0 then []
    else Collect(n - 1, want, amount) + (if want(n - 1) then [(n - 1, amount(n - 1))] else [])
  }

  /** Every pair of `s` is a selected position below `n` with its amount. */
  predicate Collected(s: Series, n: nat, want: nat -> bool, amount: nat -> Option<real>) {
    forall k :: 0 <= k < |s| ==> s[k].0 < n && want(s[k].0) && s[k].1 == amount(s[k].0)
  }

  /** The collected Series holds exactly the selected positions, in order, with their amounts. */
  lemma {:induction false} CollectFacts(n: nat, want: nat -> bool, amount: nat -> Option<real>)
    ensures Collected(Collect(n, want, amount), n, want, amount)
    ensures Ascending(Collect(n, want, amount))
    ensures forall i :: 0 <= i < n && want(i) ==> i in Labels(Collect(n, want, amount))
  {
    if n > 0 {
      CollectFacts(n - 1, want, amount);
      var init := Collect(n - 1, want, amount);
      var tail: Series := if want(n - 1) then [(n - 1, amount(n - 1))] else [];
      LabelsAppend(init, tail);
      var s := init + tail;
      assert s == Collect(n, want, amount);
      forall k | 0 <= k < |s| ensures s[k].0 < n && want(s[k].0) && s[k].1 == amount(s[k].0) {
        if k < |init| {
          assert s[k] == init[k];
        } else {
          assert s[k] == tail[k - |init|];
        }
      }
      forall a, b | 0 <= a < b < |s| ensures s[a].0 < s[b].0 {
        assert s[a] == init[a];
        if b < |init| {
          assert s[b] == init[b];
        } else {
          assert s[b] == tail[b - |init|];
        }
      }
      if want(n - 1) {
        assert tail[0].0 == n - 1;
      }
    }
  }

  function ContractWanted(rows: seq<Row>): nat -> bool {
    (i: nat) => i < |rows| && IsContract(rows[i])
  }

  function TenderPrice(rows: seq<Row>): nat -> Option<real> {
    (i: nat) => if i < |rows| then AsAmount(rows[i].priceEur) else None
  }

  /** Step 1.1: every contract row's `price_EUR`, missing or not. */
  function ContractSeries(rows: seq<Row>): (s: Series)
    ensures UniqueLabels(s)
    ensures forall k :: 0 <= k < |s| ==>
      s[k].0 < |rows| && IsContract(rows[s[k].0]) && s[k].1 == AsAmount(rows[s[k].0].priceEur)
    ensures forall i :: 0 <= i < |rows| && IsContract(rows[i]) ==> i in Labels(s)
  {
    CollectFacts(|rows|, ContractWanted(rows), TenderPrice(rows));
    Collect(|rows|, ContractWanted(rows), TenderPrice(rows))
  }

  /** `T`: rows whose identifier column is filled in and whose label is not in the Series yet. */
  predicate InPool(rows: seq<Row>, s: Series, c: IdColumn, i: nat) {
    i < |rows| && IdOf(c, rows[i]).Some? && i !in Labels(s)
  }

  /** The rows a stage counts for key `k`: unresolved awarded tenders with a product. */
  predicate AwardedIn(rows: seq<Row>, s: Series, c: IdColumn, g: Granularity, k: MatchKey, i: nat) {
    InPool(rows, s, c, i) && IsAwarded(rows[i]) && rows[i].product.Some? && MatchKeyOf(c, g, rows[i]) == Some(k)
  }

  /**
   The `groupby` column of `T[T["type"] == "awarded tender"]`, with the rows
   that `count()["product"]` does not count left null.
   */
  function AwardedKey(rows: seq<Row>, s: Series, c: IdColumn, g: Granularity, i: nat): Option<MatchKey> {
    if InPool(rows, s, c, i) && IsAwarded(rows[i]) && rows[i].product.Some? then MatchKeyOf(c, g, rows[i]) else None
  }

  function AwardedKeys(rows: seq<Row>, s: Series, c: IdColumn, g: Granularity, n: nat): (keys: seq<Option<MatchKey>>)
    ensures |keys| == n
    ensures forall i :: 0 <= i < n ==> keys[i] == AwardedKey(rows, s, c, g, i)
  {
    if n == 0 then [] else AwardedKeys(rows, s, c, g, n - 1) + [AwardedKey(rows, s, c, g, n - 1)]
  }

  /** The group size of key `k`: `groupby(column).count()["product"]`. */
  function GroupSize(rows: seq<Row>, s: Series, c: IdColumn, g: Granularity, k: MatchKey): nat {
    CountKey(AwardedKeys(rows, s, c, g, |rows|), Identity, Some(k))
  }

  /** `match[match == 1]`: the key belongs to a single-win tender (or lot). */
  predicate SingleWin(rows: seq<Row>, s: Series, c: IdColumn, g: Granularity, k: MatchKey) {
    GroupSize(rows, s, c, g, k) == 1
  }

  /** The rows a stage resolves: pool rows of a single-win key with a price present. */
  predicate Picked(rows: seq<Row>, s: Series, c: IdColumn, g: Granularity, i: nat) {
    && InPool(rows, s, c, i)
    && SingleWin(rows, s, c, g, MatchKeyOf(c, g, rows[i]).value)
    && StagePrice(g, rows[i]).Some?
  }

  function PickedFn(rows: seq<Row>, s: Series, c: IdColumn, g: Granularity): nat -> bool {
    (i: nat) => Picked(rows, s, c, g, i)
  }

  function StagePriceFn(rows: seq<Row>, g: Granularity): nat -> Option<real> {
    (i: nat) => if i < |rows| then StagePrice(g, rows[i]) else None
  }

  /** The pairs one stage appends, in table order. */
  function Appended(rows: seq<Row>, s: Series, c: IdColumn, g: Granularity): Series {
    Collect(|rows|, PickedFn(rows, s, c, g), StagePriceFn(rows, g))
  }

  /**
   One single-win stage (steps 1.2 and 1.3, for one identifier column).
   The Series only grows, and its labels stay unique.
   */
  function Stage(rows: seq<Row>, s: Series, c: IdColumn, g: Granularity): (r: Series)
    requires UniqueLabels(s)
    ensures Extends(r, s)
    ensures UniqueLabels(r)
  {
    StagePicks(rows, s, c, g);
    s + Appended(rows, s, c, g)
  }

  /**
   What a stage appends: each appended row is a pool row of a single-win
   key with a price present, appended with that price, and every such row
   is appended.
   */
  lemma StagePicks(rows: seq<Row>, s: Series, c: IdColumn, g: Granularity)
    requires UniqueLabels(s)
    ensures UniqueLabels(s + Appended(rows, s, c, g))
    ensures var r := s + Appended(rows, s, c, g);
      forall k :: |s| <= k < |r| ==>
        Picked(rows, s, c, g, r[k].0) && r[k].1 == StagePrice(g, rows[r[k].0]) && r[k].1.Some?
    ensures forall i :: 0 <= i < |rows| && Picked(rows, s, c, g, i) ==> i in Labels(s + Appended(rows, s, c, g))
  {
    var add := Appended(rows, s, c, g);
    CollectFacts(|rows|, PickedFn(rows, s, c, g), StagePriceFn(rows, g));
    LabelsAppend(s, add);
    var r := s + add;
    forall k | |s| <= k < |r|
      ensures Picked(rows, s, c, g, r[k].0) && r[k].1 == StagePrice(g, rows[r[k].0]) && r[k].1.Some?
    {
      assert r[k] == add[k - |s|];
    }
    forall a, b | 0 <= a < b < |r| ensures r[a].0 != r[b].0 {
      if a < |s| && b >= |s| {
        assert r[a] == s[a] && r[b] == add[b - |s|];
        assert r[a].0 in Labels(s);
      } else if a >= |s| {
        assert r[a] == add[a - |s|] && r[b] == add[b - |s|];
      }
    }
  }

  /** Stages 1 to 4 in the order `covidtenders.py` runs them: TED_id then contract_number, whole tenders then lots. */
  function StageColumn(n: nat): IdColumn {
    if n % 2 == 1 then TedId else ContractNumber
  }

  function StageGrain(n: nat): Granularity {
    if n <= 2 then WholeTender else PerLot
  }

  /** The Series after step 1.1 (`n == 0`) and after each of the four single-win stages. */
  function SeriesAfter(rows: seq<Row>, n: nat): (s: Series)
    requires n <= 4
    ensures UniqueLabels(s)
  {
    if n == 0 then ContractSeries(rows)
    else Stage(rows, SeriesAfter(rows, n - 1), StageColumn(n), StageGrain(n))
  }

  /** Stage `n` resolves row `i`. */
  predicate PickedAt(rows: seq<Row>, n: nat, i: nat) {
    1 <= n <= 4 && Picked(rows, SeriesAfter(rows, n - 1), StageColumn(n), StageGrain(n), i)
  }

  /** The Series line 246 aligns to the table. */
  function Cascade(rows: seq<Row>): (s: Series)
    ensures UniqueLabels(s)
  {
    SeriesAfter(rows, 4)
  }

  /** Aligning a Series with unique labels to the table: label to amount. */
  function ToMap(s: Series): (m: map<nat, Option<real>>)
    requires UniqueLabels(s)
    ensures m.Keys == Labels(s)
    ensures forall k :: 0 <= k < |s| ==> m[s[k].0] == s[k].1
  {
    if |s| == 0 then map[]
    else
      var n := |s| - 1;
      var init := s[..n];
      assert s == init + [s[n]];
      LabelsAppend(init, [s[n]]);
      assert Labels([s[n]]) == {s[n].0};
      assert UniqueLabels(init);
      var m := ToMap(init);
      assert forall k :: 0 <= k < n ==> s[k] == init[k] && s[k].0 != s[n].0;
      m[s[n].0 := s[n].1]
  }

  /** `df["price_contract_EUR"] = price_contract_EUR` as label to amount. */
  function Resolution(rows: seq<Row>): map<nat, Option<real>> {
    ToMap(Cascade(rows))
  }

  /** Each stage only appends: the Series after stage `n` is a prefix of the one after stage `m`. */
  lemma {:induction false} SeriesGrows(rows: seq<Row>, n: nat, m: nat)
    requires n <= m <= 4
    ensures Extends(SeriesAfter(rows, m), SeriesAfter(rows, n))
    decreases m
  {
    if n < m {
      var a := SeriesAfter(rows, n);
      var b := SeriesAfter(rows, m - 1);
      var c := SeriesAfter(rows, m);
      SeriesGrows(rows, n, m - 1);
      assert Extends(b, a);
      assert Extends(c, b);
    }
  }

  /** Labels only accumulate from one step to the next. */
  lemma LabelsGrow(rows: seq<Row>, n: nat, m: nat)
    requires n <= m <= 4
    ensures Labels(SeriesAfter(rows, n)) <= Labels(SeriesAfter(rows, m))
  {
    SeriesGrows(rows, n, m);
    var a := SeriesAfter(rows, n);
    var b := SeriesAfter(rows, m);
    forall i | i in Labels(a) ensures i in Labels(b) {
      var k :| 0 <= k < |a| && a[k].0 == i;
      assert b[k] == a[k];
    }
  }

  /** Whatever a stage appended is what the aligned column holds: no later stage overrides it. */
  lemma ResolutionKeepsStage(rows: seq<Row>, n: nat, k: nat)
    requires n <= 4 && k < |SeriesAfter(rows, n)|
    ensures SeriesAfter(rows, n)[k].0 in Resolution(rows)
    ensures Resolution(rows)[SeriesAfter(rows, n)[k].0] == SeriesAfter(rows, n)[k].1
  {
    SeriesGrows(rows, n, 4);
    assert SeriesAfter(rows, 4)[k] == SeriesAfter(rows, n)[k];
  }

  /** Step 1.1 wins: a contract row keeps its own `price_EUR`, present or missing. */
  lemma ContractPriceKept(rows: seq<Row>, i: nat)
    requires i < |rows| && IsContract(rows[i])
    ensures i in Resolution(rows) && Resolution(rows)[i] == AsAmount(rows[i].priceEur)
  {
    var s0 := SeriesAfter(rows, 0);
    assert i in Labels(s0);
    var k :| 0 <= k < |s0| && s0[k].0 == i;
    ResolutionKeepsStage(rows, 0, k);
  }

  /** A row stage `n` resolves ends up with that stage's price, which is present. */
  lemma StagePriceKept(rows: seq<Row>, n: nat, i: nat)
    requires i < |rows| && PickedAt(rows, n, i)
    ensures i in Resolution(rows)
    ensures Resolution(rows)[i] == StagePrice(StageGrain(n), rows[i]) && Resolution(rows)[i].Some?
  {
    var s := SeriesAfter(rows, n);
    StagePicks(rows, SeriesAfter(rows, n - 1), StageColumn(n), StageGrain(n));
    assert i in Labels(s);
    var k :| 0 <= k < |s| && s[k].0 == i;
    ResolutionKeepsStage(rows, n, k);
  }

  /** A label first appearing after stage `n` was picked by stage `n`. */
  lemma NewLabelPicked(rows: seq<Row>, n: nat, i: nat)
    requires 1 <= n <= 4 && i in Labels(SeriesAfter(rows, n)) && i !in Labels(SeriesAfter(rows, n - 1))
    ensures i < |rows| && PickedAt(rows, n, i)
  {
    var s := SeriesAfter(rows, n);
    StagePicks(rows, SeriesAfter(rows, n - 1), StageColumn(n), StageGrain(n));
    var k :| 0 <= k < |s| && s[k].0 == i;
  }

  /** A row is in the aligned column only if step 1.1 or one single-win stage put it there. */
  lemma ResolvedRowsAccounted(rows: seq<Row>, i: nat)
    requires i in Resolution(rows)
    ensures i < |rows|
    ensures IsContract(rows[i]) || exists n :: PickedAt(rows, n, i)
  {
    if i in Labels(SeriesAfter(rows, 0)) {
      var s := SeriesAfter(rows, 0);
      var k :| 0 <= k < |s| && s[k].0 == i;
    } else if i in Labels(SeriesAfter(rows, 1)) {
      NewLabelPicked(rows, 1, i);
    } else if i in Labels(SeriesAfter(rows, 2)) {
      NewLabelPicked(rows, 2, i);
    } else if i in Labels(SeriesAfter(rows, 3)) {
      NewLabelPicked(rows, 3, i);
    } else {
      NewLabelPicked(rows, 4, i);
    }
  }

  /** A missing amount in the aligned column can only come from a contract row without a price. */
  lemma MissingAmountOnlyFromContracts(rows: seq<Row>, i: nat)
    requires i in Resolution(rows) && Resolution(rows)[i].None?
    ensures i < |rows| && IsContract(rows[i]) && AsAmount(rows[i].priceEur).None?
  {
    ResolvedRowsAccounted(rows, i);
    if !IsContract(rows[i]) {
      var n :| PickedAt(rows, n, i);
      StagePriceKept(rows, n, i);
    } else {
      ContractPriceKept(rows, i);
    }
  }

  /** Rows an earlier step resolved are out of every later stage's pool. */
  lemma EarlierStagesExcluded(rows: seq<Row>, n: nat, m: nat, i: nat)
    requires n < m <= 4 && i < |rows|
    requires (n == 0 && IsContract(rows[i])) || PickedAt(rows, n, i)
    ensures !PickedAt(rows, m, i)
  {
    if n == 0 && IsContract(rows[i]) {
      assert i in Labels(SeriesAfter(rows, 0));
    } else {
      PickedInOwnSeries(rows, n, i);
    }
    LaterPoolsExclude(rows, n, m, i);
  }

  /** A label already in the Series after step `n` is out of the pool of every later stage. */
  lemma LaterPoolsExclude(rows: seq<Row>, n: nat, m: nat, i: nat)
    requires n < m <= 4 && i in Labels(SeriesAfter(rows, n))
    ensures !InPool(rows, SeriesAfter(rows, m - 1), StageColumn(m), i)
  {
    var a := SeriesAfter(rows, n);
    var b := SeriesAfter(rows, m - 1);
    LabelsGrow(rows, n, m - 1);
    assert i in Labels(b);
    assert !InPool(rows, b, StageColumn(m), i);
  }

  /** A row stage `n` resolves carries a label in the Series after that stage. */
  lemma PickedInOwnSeries(rows: seq<Row>, n: nat, i: nat)
    requires i < |rows| && PickedAt(rows, n, i)
    ensures i in Labels(SeriesAfter(rows, n))
  {
    var prior := SeriesAfter(rows, n - 1);
    var c := StageColumn(n);
    var g := StageGrain(n);
    assert Picked(rows, prior, c, g, i);
    StagePicks(rows, prior, c, g);
    assert SeriesAfter(rows, n) == prior + Appended(rows, prior, c, g);
  }

  /**
   A key is single-win exactly when one unresolved awarded row with a
   product carries it.
   */
  lemma SingleWinMeansOneAwardedRow(rows: seq<Row>, s: Series, c: IdColumn, g: Granularity, k: MatchKey)
    ensures SingleWin(rows, s, c, g, k) <==>
      exists i :: AwardedIn(rows, s, c, g, k, i) && forall j :: AwardedIn(rows, s, c, g, k, j) ==> j == i
  {
    var keys := AwardedKeys(rows, s, c, g, |rows|);
    CountKeyOne(keys, Identity, Some(k));
    if SingleWin(rows, s, c, g, k) {
      var i: nat :| OnlyAt(keys, Identity, Some(k), i);
      KeyMarksAwarded(rows, s, c, g, k, i);
      forall j | AwardedIn(rows, s, c, g, k, j) ensures j == i {
        KeyMarksAwarded(rows, s, c, g, k, j);
      }
    }
    if exists i :: AwardedIn(rows, s, c, g, k, i) && forall j :: AwardedIn(rows, s, c, g, k, j) ==> j == i {
      var i: nat :| AwardedIn(rows, s, c, g, k, i) && forall j :: AwardedIn(rows, s, c, g, k, j) ==> j == i;
      KeyMarksAwarded(rows, s, c, g, k, i);
      forall j | 0 <= j < |keys| && Identity(keys[j]) == Some(k) ensures j == i {
        KeyMarksAwarded(rows, s, c, g, k, j);
      }
      assert OnlyAt(keys, Identity, Some(k), i);
    }
  }

  /** Position `i` of the counted column carries `k` exactly when row `i` is an awarded row of `k`. */
  lemma KeyMarksAwarded(rows: seq<Row>, s: Series, c: IdColumn, g: Granularity, k: MatchKey, i: nat)
    ensures var keys := AwardedKeys(rows, s, c, g, |rows|);
      AwardedIn(rows, s, c, g, k, i) <==> i < |keys| && Identity(keys[i]) == Some(k)
  {
  }

  /** Row `i` is the one awarded row a stage counts for key `k`. */
  predicate OnlyAwardedRow(rows: seq<Row>, s: Series, c: IdColumn, g: Granularity, k: MatchKey, i: nat) {
    AwardedIn(rows, s, c, g, k, i) && forall l: nat :: l < |rows| && AwardedIn(rows, s, c, g, k, l) ==> l == i
  }

  /**
   Once a key is single-win, every unresolved row carrying it that has a
   price is resolved with its own price, whatever its type: not only the
   awarded row that made the key single-win.
   */
  lemma EveryRowOfSingleWinKeyPriced(rows: seq<Row>, n: nat, k: MatchKey, i: nat, j: nat)
    requires 1 <= n <= 4 && j < |rows|
    requires OnlyAwardedRow(rows, SeriesAfter(rows, n - 1), StageColumn(n), StageGrain(n), k, i)
    requires InPool(rows, SeriesAfter(rows, n - 1), StageColumn(n), j)
    requires MatchKeyOf(StageColumn(n), StageGrain(n), rows[j]) == Some(k)
    requires StagePrice(StageGrain(n), rows[j]).Some?
    ensures j in Resolution(rows) && Resolution(rows)[j] == StagePrice(StageGrain(n), rows[j])
  {
    SingleWinMeansOneAwardedRow(rows, SeriesAfter(rows, n - 1), StageColumn(n), StageGrain(n), k);
    assert PickedAt(rows, n, j);
    StagePriceKept(rows, n, j);
  }

  /** The columns line 248 keeps; `amount` is the aligned `price_contract_EUR`. */
  datatype AwardView = AwardView(
    id: string,
    date: Option<string>,
    product: Option<string>,
    kind: Option<string>,
    title: Option<string>,
    lot: Option<string>,
    buyerCountry: Option<string>,
    supplier: Option<string>,
    amount: Option<real>,
    priceEur: Value,
    priceLotEur: Value,
    supplierInfo: SupplierInfo,
    procedure: Option<string>,
    bids: Value,
    contractNumber: Option<string>,
    tedId: Option<string>,
    price: Value,
    priceCurrency: Option<string>,
    priceLot: Value,
    source: Option<string>)

  function View(r: Row, amount: Option<real>): AwardView {
    AwardView(r.id, r.date, r.product, r.kind, r.title, r.lot, r.buyerCountry, r.supplier, amount,
              r.priceEur, r.priceLotEur, r.supplierInfo, r.procedure, r.bids, r.contractNumber,
              r.tedId, r.price, r.priceCurrency, r.priceLot, r.source)
  }

  /** A projected row with the index label it had before `set_index("ID")`. */
  datatype Award = Award(pos: nat, view: AwardView)

  function PosOf(a: Award): nat {
    a.pos
  }

  /** The aligned column: the Series' amount, or null where the Series has no such label. */
  function AmountAt(m: map<nat, Option<real>>, i: nat): Option<real> {
    if i in m then m[i] else None
  }

  /** The first `n` rows with their aligned amount, in table order. */
  function Aligned(rows: seq<Row>, m: map<nat, Option<real>>, n: nat): (a: seq<Award>)
    requires n <= |rows|
    ensures |a| == n
    ensures forall k :: 0 <= k < n ==> a[k] == Award(k, View(rows[k], AmountAt(m, k)))
  {
    if n == 0 then [] else Aligned(rows, m, n - 1) + [Award(n - 1, View(rows[n - 1], AmountAt(m, n - 1)))]
  }

  function AlignedTable(rows: seq<Row>): seq<Award> {
    Aligned(rows, Resolution(rows), |rows|)
  }

  predicate HasAmount(a: Award) {
    a.view.amount.Some?
  }

  /** Line 251: a null amount on a row whose label the Series never carried. */
  function Unresolved(rows: seq<Row>): seq<Award> {
    Filter(AlignedTable(rows), (a: Award) => a.view.amount.None? && a.pos !in Resolution(rows))
  }

  /** Line 252: the rows with an amount. */
  function Resolved(rows: seq<Row>): seq<Award> {
    Filter(AlignedTable(rows), HasAmount)
  }

  /** What each of the two tables holds: the projection of the cleaned row at its label. */
  lemma GroupMembers(rows: seq<Row>)
    ensures forall a :: a in Resolved(rows) ==>
      a.pos < |rows| && a.pos in Resolution(rows) && Resolution(rows)[a.pos].Some?
      && a.view == View(rows[a.pos], Resolution(rows)[a.pos])
    ensures forall a :: a in Unresolved(rows) ==>
      a.pos < |rows| && a.pos !in Resolution(rows) && a.view == View(rows[a.pos], None)
  {
    var t := AlignedTable(rows);
    forall a | a in t ensures a.pos < |rows| && a.view == View(rows[a.pos], AmountAt(Resolution(rows), a.pos)) {
      var k :| 0 <= k < |t| && t[k] == a;
    }
  }

  /**
   Step 1.4 splits the rows three ways: those with an amount, the
   unresolved ones, and contract rows whose `price_EUR` is missing, which
   are in neither table.
   */
  lemma EveryRowGrouped(rows: seq<Row>, i: nat)
    requires i < |rows|
    ensures i in Resolution(rows) && Resolution(rows)[i].Some? ==>
      Award(i, View(rows[i], Resolution(rows)[i])) in Resolved(rows)
    ensures i !in Resolution(rows) ==> Award(i, View(rows[i], None)) in Unresolved(rows)
    ensures i in Resolution(rows) && Resolution(rows)[i].None? ==>
      IsContract(rows[i]) && AsAmount(rows[i].priceEur).None?
      && (forall a :: a in Resolved(rows) ==> a.pos != i)
      && (forall a :: a in Unresolved(rows) ==> a.pos != i)
  {
    var t := AlignedTable(rows);
    assert t[i] == Award(i, View(rows[i], AmountAt(Resolution(rows), i)));
    assert t[i] in t;
    GroupMembers(rows);
    if i in Resolution(rows) && Resolution(rows)[i].None? {
      MissingAmountOnlyFromContracts(rows, i);
    }
  }

  function TitleOf(a: Award): Option<string> {
    a.view.title
  }

  /** `groupby("title").filter(len == 1)` then `isin`: a title no other unresolved row has. */
  predicate UniqueTitle(missing: seq<Award>, a: Award) {
    a.view.title.Some? && CountKey(missing, TitleOf, a.view.title) == 1
  }

  function UniqueTitleIn(missing: seq<Award>): Award -> bool {
    (a: Award) => UniqueTitle(missing, a)
  }

  /** `only_one_tender["price_contract_EUR"] = only_one_tender["price_EUR"]`. */
  function WithTenderPrice(a: Award): Award {
    a.(view := a.view.(amount := AsAmount(a.view.priceEur)))
  }

  function TenderPriced(s: seq<Award>): (r: seq<Award>)
    ensures |r| == |s|
    ensures forall k :: 0 <= k < |r| ==> r[k] == WithTenderPrice(s[k])
  {
    if |s| == 0 then [] else TenderPriced(s[..|s| - 1]) + [WithTenderPrice(s[|s| - 1])]
  }

  /** Step 1.5: unresolved rows with a unique title, priced with their own `price_EUR`. */
  function Fallback(missing: seq<Award>): seq<Award> {
    TenderPriced(Filter(missing, UniqueTitleIn(missing)))
  }

  /** The fallback takes exactly the unresolved rows of unique title, and changes only their amount. */
  lemma FallbackRule(missing: seq<Award>, b: Award)
    ensures b in Fallback(missing) ==> exists a :: a in missing && UniqueTitle(missing, a) && b == WithTenderPrice(a)
    ensures (exists a :: a in missing && UniqueTitle(missing, a) && b == WithTenderPrice(a)) ==> b in Fallback(missing)
  {
    var picked := Filter(missing, UniqueTitleIn(missing));
    var r := Fallback(missing);
    if b in r {
      var k :| 0 <= k < |r| && r[k] == b;
      assert picked[k] in picked;
    }
    if exists a :: a in missing && UniqueTitle(missing, a) && b == WithTenderPrice(a) {
      var a :| a in missing && UniqueTitle(missing, a) && b == WithTenderPrice(a);
      assert a in picked;
      var k :| 0 <= k < |picked| && picked[k] == a;
      assert r[k] == b;
    }
  }

  /**
   A title is unique among the unresolved rows exactly when no other
   unresolved row carries it.
   */
  lemma UniqueTitleMeansNoOther(missing: seq<Award>, a: Award)
    requires DistinctBy(missing, PosOf) && a in missing
    ensures UniqueTitle(missing, a) <==>
      a.view.title.Some? && forall b :: b in missing && b.view.title == a.view.title ==> b == a
  {
    CountKeyOne(missing, TitleOf, a.view.title);
    var i :| 0 <= i < |missing| && missing[i] == a;
    if UniqueTitle(missing, a) {
      var w :| OnlyAt(missing, TitleOf, a.view.title, w);
      forall b | b in missing && b.view.title == a.view.title ensures b == a {
        var j :| 0 <= j < |missing| && missing[j] == b;
      }
    }
    if a.view.title.Some? && forall b :: b in missing && b.view.title == a.view.title ==> b == a {
      forall j | 0 <= j < |missing| && TitleOf(missing[j]) == a.view.title ensures j == i {
        assert missing[j] in missing;
        if j < i {} else if i < j {}
      }
      assert OnlyAt(missing, TitleOf, a.view.title, i);
    }
  }

  /** `missing` is not reduced after step 1.5: every fallback row is still counted there. */
  lemma FallbackRowsStayMissing(rows: seq<Row>, b: Award)
    requires b in Fallback(Unresolved(rows))
    ensures b.pos < |rows| && Award(b.pos, View(rows[b.pos], None)) in Unresolved(rows)
  {
    FallbackRule(Unresolved(rows), b);
    GroupMembers(rows);
  }

  /** Lines 252 and 261: the winning bids, indexed by `ID`. */
  function Bids(rows: seq<Row>): seq<Award> {
    Resolved(rows) + Fallback(Unresolved(rows))
  }

  lemma AlignedDistinct(rows: seq<Row>)
    ensures DistinctBy(AlignedTable(rows), PosOf)
  {
  }

  lemma TenderPricedDistinct(s: seq<Award>)
    requires DistinctBy(s, PosOf)
    ensures DistinctBy(TenderPriced(s), PosOf)
  {
  }

  lemma UnresolvedDistinct(rows: seq<Row>)
    ensures DistinctBy(Unresolved(rows), PosOf)
  {
    AlignedDistinct(rows);
    FilterKeepsDistinct(AlignedTable(rows), (a: Award) => a.view.amount.None? && a.pos !in Resolution(rows), PosOf);
  }

  lemma FallbackDistinct(missing: seq<Award>)
    requires DistinctBy(missing, PosOf)
    ensures DistinctBy(Fallback(missing), PosOf)
  {
    FilterKeepsDistinct(missing, UniqueTitleIn(missing), PosOf);
    TenderPricedDistinct(Filter(missing, UniqueTitleIn(missing)));
  }

  /** No row is counted twice among the winning bids, and the unresolved table has one row per label. */
  lemma NoDoubleCounting(rows: seq<Row>)
    ensures DistinctBy(Unresolved(rows), PosOf)
    ensures DistinctBy(Bids(rows), PosOf)
  {
    AlignedDistinct(rows);
    FilterKeepsDistinct(AlignedTable(rows), HasAmount, PosOf);
    UnresolvedDistinct(rows);
    var missing := Unresolved(rows);
    FallbackDistinct(missing);
    GroupMembers(rows);
    forall x, y | x in Resolved(rows) && y in Fallback(missing) ensures PosOf(x) != PosOf(y) {
      FallbackRule(missing, y);
    }
    ConcatKeepsDistinct(Resolved(rows), Fallback(missing), PosOf);
  }

  /** A row of the manually deduplicated company file: the name as scraped and its cleaned form. */
  datatype SupplierName = SupplierName(supplier: Option<string>, clean: Option<string>)

  /** The rows of `table` whose `supplier` equals the bid's; pandas matches null with null. */
  function Matches(a: Award, table: seq<SupplierName>): (r: seq<(Award, SupplierName)>)
    ensures forall p :: p in r ==> p.0 == a && p.1 in table && p.1.supplier == a.view.supplier
  {
    if |table| == 0 then []
    else
      var e := table[|table| - 1];
      Matches(a, table[..|table| - 1]) + (if e.supplier == a.view.supplier then [(a, e)] else [])
  }

  /** Line 307: the inner join on `supplier`. */
  function Join(bids: seq<Award>, table: seq<SupplierName>): (r: seq<(Award, SupplierName)>)
    ensures forall p :: p in r ==> p.0 in bids && p.1 in table && p.0.view.supplier == p.1.supplier
  {
    if |bids| == 0 then [] else Join(bids[..|bids| - 1], table) + Matches(bids[|bids| - 1], table)
  }

  /** Every matching (bid, name) pair is in the join. */
  lemma {:induction false} JoinComplete(bids: seq<Award>, table: seq<SupplierName>, a: Award, e: SupplierName)
    requires a in bids && e in table && a.view.supplier == e.supplier
    ensures (a, e) in Join(bids, table)
  {
    var n := |bids| - 1;
    if a == bids[n] {
      MatchesComplete(a, table, e);
    } else {
      assert a in bids[..n];
      JoinComplete(bids[..n], table, a, e);
    }
  }

  lemma {:induction false} MatchesComplete(a: Award, table: seq<SupplierName>, e: SupplierName)
    requires e in table && a.view.supplier == e.supplier
    ensures (a, e) in Matches(a, table)
  {
    var n := |table| - 1;
    if e != table[n] {
      assert e in table[..n];
      MatchesComplete(a, table[..n], e);
    }
  }

  /** The outputs of `filter_just_companies`: the winning bids, the joined data, and `missing`. */
  datatype CompanyResult = CompanyResult(bids: seq<Award>, data: seq<(Award, SupplierName)>, missing: seq<Award>)

  /**
   `filter_just_companies`: clean, resolve amounts, add the unique-title
   fallback, and join the bids with the deduplicated company file.
   */
  function FilterJustCompanies(raw: seq<Row>, names: seq<SupplierName>): (out: CompanyResult)
    ensures var df := CleanTenderData(raw);
      && (forall a :: a in out.missing ==> a.pos < |df| && a.view == View(df[a.pos], None))
      && (forall p :: p in out.data ==>
            p.0 in out.bids && p.1 in names && p.0.view.supplier == p.1.supplier)
  {
    var df := CleanTenderData(raw);
    var table := DropDuplicates(names, Identity, First);
    GroupMembers(df);
    CompanyResult(Bids(df), Join(Bids(df), table), Unresolved(df))
  }
}

=== FILE: currency.dfy ===
/**
 `x_to_eur`: the per-row conversion of a price into euro with a static
 rate table, and the `pd.to_numeric(..., errors="coerce")` that its callers
 apply to the result.
 */
module Currency {
  import opened Wrappers
  import opened Text
  import opened Records

  /**
   Euro per unit of each currency. The dict literal in `covidtenders.py` lists "ALL"
   twice; as in a Python dict literal, the later entry is the one kept.
   */
  const Rates: map<string, real> := map[
    "EUR" := 1.0,
    "CHF" := 0.95,
    "CZK" := 0.036,
    "HUF" := 0.0028,
    "GBP" := 1.13,
    "ALL" := 0.008,
    "ISK" := 0.006,
    "MKD" := 0.016,
    "NOK" := 0.091,
    "SEK" := 0.0945,
    "RUB" := 0.012,
    "RON" := 0.206,
    "PLN" := 0.223,
    "CNY" := 0.12,
    "MDL" := 0.051,
    "BGN" := 0.511292,
    "USD" := 0.873956,
    "ALL" := 0.00806510,
    "BAM" := 0.511292,
    "UAH" := 0.031,
    "HRK" := 0.132,
    "DKK" := 0.134]

  /** `x_to_eur[x[price_currency]]`: the rate for the currency cell exactly as written, if the table has it. */
  function Lookup(currency: Option<string>): (q: Option<real>)
    ensures q.Some? ==> currency.Some? && currency.value in Rates && q.value == Rates[currency.value]
  {
    if currency.Some? && currency.value in Rates then Some(Rates[currency.value]) else None
  }

  /** `pd.isna(v) or v == ""`: the euro cell still has to be computed. */
  predicate Blank(v: Value) {
    v.NaN? || v == Text("")
  }

  /** The text a price string is parsed from: commas removed, then whitespace stripped. */
  function CleanPriceText(s: string): string {
    Strip(RemoveAll(s, ','))
  }

  /**
   `x_to_eur(x, price, price_currency, price_EUR)`. A filled-in euro cell is
   returned untouched. Otherwise a number is multiplied by its currency's
   rate (NaN times a rate stays NaN), a string is first cleaned and parsed,
   and every failure (unknown or missing currency, unparseable text, any
   other type) gives the empty string.
   */
  function XToEur(price: Value, currency: Option<string>, eur: Value): (r: Value)
    ensures !Blank(eur) ==> r == eur
    ensures Blank(eur) ==> r.NaN? || r.Num? || r == Text("")
    ensures Blank(eur) && Lookup(currency).None? ==> r == Text("")
    ensures Blank(eur) && Lookup(currency).Some? && price.Num? ==>
      r == Num(InEuro(price.x, Lookup(currency).value))
    ensures Blank(eur) && Lookup(currency).Some? && price.NaN? ==> r == NaN
    ensures Blank(eur) && price.Text? && ParseDecimal(CleanPriceText(price.s)).None? ==> r == Text("")
    ensures Blank(eur) && Lookup(currency).Some? && price.Text? && ParseDecimal(CleanPriceText(price.s)).Some? ==>
      r == Num(InEuro(ParseDecimal(CleanPriceText(price.s)).value, Lookup(currency).value))
    ensures Blank(eur) && price.Other? ==> r == Text("")
  {
    if !Blank(eur) then eur
    else Convert(price, Lookup(currency))
  }

  /** An amount in some currency times that currency's rate. */
  function InEuro(amount: real, rate: real): real {
    amount * rate
  }

  /** The conversion itself, given the looked-up rate (None for a KeyError). */
  function Convert(price: Value, rate: Option<real>): Value {
    match price
    case NaN => if rate.Some? then NaN else Text("")
    case Num(x) => if rate.Some? then Num(InEuro(x, rate.value)) else Text("")
    case Text(s) => ConvertText(CleanPriceText(s), rate)
    case Other => Text("")
  }

  /** `float(text) * rate`, or the empty string when either step fails. */
  function ConvertText(c: string, rate: Option<real>): Value {
    var p := ParseDecimal(c);
    if p.Some? && rate.Some? then Num(InEuro(p.value, rate.value)) else Text("")
  }

  /** `pd.to_numeric(v, errors="coerce")` on one cell: numbers stay, text is parsed, the rest is NaN. */
  function ToNumeric(v: Value): (r: Value)
    ensures r.NaN? || r.Num?
    ensures v.Num? ==> r == v
    ensures v.NaN? || v.Other? ==> r.NaN?
    ensures v.Text? ==> AsAmount(r) == ParseDecimal(v.s)
  {
    match v
    case Num(_) => v
    case Text(s) => if ParseDecimal(s).Some? then Num(ParseDecimal(s).value) else NaN
    case _ => NaN
  }

  /** Coercion reads a rendered number back as that number, and coercing twice is coercing once. */
  lemma ToNumericReadsBack(n: nat, v: Value)
    ensures ToNumeric(Text(ShowNat(n))) == Num(n as real)
    ensures ToNumeric(ToNumeric(v)) == ToNumeric(v)
  {
    ParseShowNat(n);
  }

  /** The derived `price_EUR` / `price_lot_EUR` column of a row. */
  function EurColumn(price: Value, currency: Option<string>, eur: Value): (r: Value)
    ensures r.NaN? || r.Num?
    ensures eur.Num? ==> r == eur
  {
    ToNumeric(XToEur(price, currency, eur))
  }

  /** Converting again, with the first result as the euro cell, changes nothing. */
  lemma XToEurIdempotent(price: Value, currency: Option<string>, eur: Value)
    ensures XToEur(price, currency, XToEur(price, currency, eur)) == XToEur(price, currency, eur)
  {
  }

  /** A text price matters only through its cleaned text. */
  lemma SameCleanTextSameResult(s: string, t: string, currency: Option<string>, eur: Value)
    requires CleanPriceText(s) == CleanPriceText(t)
    ensures XToEur(Text(s), currency, eur) == XToEur(Text(t), currency, eur)
  {
    if Blank(eur) {
      assert Convert(Text(s), Lookup(currency)) == Convert(Text(t), Lookup(currency));
    }
  }

  /** Thousands separators never change the outcome: "1,000" converts exactly like "1000". */
  lemma ThousandsSeparatorsIgnored(s: string, currency: Option<string>, eur: Value)
    ensures XToEur(Text(s), currency, eur) == XToEur(Text(RemoveAll(s, ',')), currency, eur)
  {
    RemoveAbsent(RemoveAll(s, ','), ',');
    SameCleanTextSameResult(s, RemoveAll(s, ','), currency, eur);
  }

  /** Surrounding whitespace never changes the outcome. */
  lemma SurroundingSpaceIgnored(s: string, currency: Option<string>, eur: Value)
    ensures XToEur(Text(s), currency, eur) == XToEur(Text(Strip(s)), currency, eur)
  {
    PaddingIgnored(s);
    SameCleanTextSameResult(s, Strip(s), currency, eur);
  }

  /** Cleaning a price string gives the same text whether or not it was stripped first. */
  lemma PaddingIgnored(s: string)
    ensures CleanPriceText(s) == CleanPriceText(Strip(s))
  {
    var m := Strip(s);
    var lead, trail := StripSplit(s);
    NoCommaInSpace(lead);
    NoCommaInSpace(trail);
    RemoveAllAppend(lead + m, trail, ',');
    RemoveAllAppend(lead, m, ',');
    RemoveAbsent(lead, ',');
    RemoveAbsent(trail, ',');
    assert RemoveAll(s, ',') == lead + RemoveAll(m, ',') + trail;
    StripPadded(lead, RemoveAll(m, ','), trail);
  }

  /** Whitespace holds no comma. */
  lemma NoCommaInSpace(s: string)
    requires AllSpace(s)
    ensures ',' !in s
  {
    forall i | 0 <= i < |s| ensures s[i] != ',' {
      assert IsSpace(s[i]);
    }
  }

  /** A rendered number is already clean: no commas and no surrounding whitespace. */
  lemma ShowNatIsClean(n: nat)
    ensures CleanPriceText(ShowNat(n)) == ShowNat(n)
  {
    var s := ShowNat(n);
    DigitsAreClean(s);
  }

  /** A non-empty digit string has no commas and no surrounding whitespace. */
  lemma DigitsAreClean(s: string)
    requires |s| > 0 && AllDigits(s)
    ensures CleanPriceText(s) == s
  {
    forall i | 0 <= i < |s| ensures s[i] != ',' {
      assert IsDigit(s[i]);
    }
    RemoveAbsent(s, ',');
    assert IsDigit(s[0]) && IsDigit(s[|s| - 1]);
    StripUnpadded(s);
  }

  /** Clean text that parses to `x` converts exactly like the number `x`. */
  lemma CleanTextConvertsLikeNumber(s: string, x: real, rate: Option<real>)
    requires CleanPriceText(s) == s && ParseDecimal(s) == Some(x)
    ensures Convert(Text(s), rate) == Convert(Num(x), rate)
  {
  }

  /** A price written out as digits converts exactly like the same number stored as a number. */
  lemma TextAgreesWithNumber(n: nat, currency: Option<string>)
    ensures XToEur(Text(ShowNat(n)), currency, NaN) == XToEur(Num(n as real), currency, NaN)
  {
    var s := ShowNat(n);
    ShowNatIsClean(n);
    ParseShowNat(n);
    CleanTextConvertsLikeNumber(s, n as real, Lookup(currency));
  }

  /** The currency cell is looked up verbatim: a padded code is unknown and gives the empty string. */
  lemma CurrencyNotTrimmed()
    ensures XToEur(Num(100.0), Some("USD "), NaN) == Text("")
    ensures XToEur(Num(100.0), Some("USD"), NaN) == Num(87.3956)
  {
    assert "USD " !in Rates;
    assert Lookup(Some("USD")) == Some(0.873956);
  }

  /** An unknown currency leaves the euro column missing. */
  lemma UnknownCurrencyExample()
    ensures EurColumn(Num(50.0), Some("XYZ"), NaN) == NaN
  {
    assert "XYZ" !in Rates;
  }

  /** The Albanian lek rate is the second of its two entries. */
  lemma AlbanianLekRate()
    ensures Lookup(Some("ALL")) == Some(0.00806510)
  {
  }
}

=== FILE: frames.dfy ===
/**
 The handful of pandas DataFrame operations the pipeline is built from, over
 plain sequences of rows: boolean indexing `df[mask]`, `duplicated` /
 `drop_duplicates` with `keep='first'` or `keep='last'`, and group sizes.
 Missing cells are values like any other here, so two missing keys compare
 equal, as they do in `drop_duplicates`.
 */
module Frames {

  /** Which occurrence `drop_duplicates` keeps. */
  datatype Keep = First | Last

  /** Positions of the true entries of a boolean mask, in increasing order. */
  function Kept(m: seq<bool>): (p: seq<nat>)
    ensures forall k :: 0 <= k < |p| ==> p[k] < |m| && m[p[k]]
    ensures forall k, l :: 0 <= k < l < |p| ==> p[k] < p[l]
    ensures forall i :: 0 <= i < |m| && m[i] ==> i in p
  {
    if |m| == 0 then []
    else
      var p := Kept(m[..|m| - 1]);
      if m[|m| - 1] then p + [|m| - 1] else p
  }

  /** Boolean indexing `df[mask]`: the rows whose mask entry is true, in their order. */
  function Where<T>(s: seq<T>, m: seq<bool>): (r: seq<T>)
    requires |m| == |s|
    ensures |r| == |Kept(m)|
    ensures forall k :: 0 <= k < |r| ==> r[k] == s[Kept(m)[k]]
  {
    Gather(s, Kept(m))
  }

  /** Boolean indexing keeps exactly the rows its mask selects. */
  lemma WhereMembers<T>(s: seq<T>, m: seq<bool>)
    requires |m| == |s|
    ensures forall x :: x in Where(s, m) ==> exists i :: 0 <= i < |s| && m[i] && s[i] == x
    ensures forall i :: 0 <= i < |s| && m[i] ==> s[i] in Where(s, m)
  {
    var r := Where(s, m);
    var p := Kept(m);
    forall i | 0 <= i < |s| && m[i] ensures s[i] in r {
      var k :| 0 <= k < |p| && p[k] == i;
      assert r[k] == s[i];
    }
  }

  /** Indexing with one more mask entry appends the last row when that entry is true. */
  lemma WhereSnoc<T>(s: seq<T>, m: seq<bool>)
    requires |m| == |s| > 0
    ensures Where(s, m) == Where(s[..|s| - 1], m[..|s| - 1]) + (if m[|s| - 1] then [s[|s| - 1]] else [])
  {
    var n := |s| - 1;
    var p := Kept(m[..n]);
    assert Kept(m) == p + (if m[n] then [n] else []);
    var a := Where(s, m);
    var b := Where(s[..n], m[..n]) + (if m[n] then [s[n]] else []);
    assert |a| == |b|;
    forall k | 0 <= k < |a| ensures a[k] == b[k] {
      if k < |p| {
        assert p[k] < n && a[k] == s[p[k]] && b[k] == s[..n][p[k]];
      }
    }
  }

  /** The identity, as the key when rows or values are compared whole. */
  function Identity<T>(x: T): T {
    x
  }

  /** The mask `df.apply(keep)` of a row predicate. */
  function Mask<T>(s: seq<T>, keep: T -> bool): (m: seq<bool>)
    ensures |m| == |s|
    ensures forall i :: 0 <= i < |s| ==> m[i] == keep(s[i])
  {
    seq(|s|, i requires 0 <= i < |s| => keep(s[i]))
  }

  /** Boolean indexing with a row predicate, `df[df.apply(keep)]`: the rows satisfying `keep`, in order. */
  function Filter<T>(s: seq<T>, keep: T -> bool): (r: seq<T>)
    ensures |r| <= |s|
    ensures forall x :: x in r ==> x in s && keep(x)
    ensures forall x :: x in s && keep(x) ==> x in r
  {
    if |s| == 0 then []
    else
      var init := Filter(s[..|s| - 1], keep);
      assert forall x :: x in s ==> x in s[..|s| - 1] || x == s[|s| - 1];
      init + (if keep(s[|s| - 1]) then [s[|s| - 1]] else [])
  }

  /** A function applied to every row, `df.apply(f, axis=1)`, in order. */
  function Map<T, U>(s: seq<T>, f: T -> U): (r: seq<U>)
    ensures |r| == |s| && forall i :: 0 <= i < |s| ==> r[i] == f(s[i])
  {
    if |s| == 0 then [] else Map(s[..|s| - 1], f) + [f(s[|s| - 1])]
  }

  /** Every row of a filtered and mapped table is the image of a row that passes. */
  lemma MapFilterFrom<T, U>(s: seq<T>, keep: T -> bool, f: T -> U)
    ensures forall y :: y in Map(Filter(s, keep), f) ==> exists x :: x in s && keep(x) && y == f(x)
  {
    var kept := Filter(s, keep);
    var r := Map(kept, f);
    forall y | y in r ensures exists x :: x in s && keep(x) && y == f(x) {
      var k :| 0 <= k < |r| && r[k] == y;
      assert kept[k] in kept;
    }
  }

  /** Every row that passes has its image in the filtered and mapped table. */
  lemma MapFilterCovers<T, U>(s: seq<T>, keep: T -> bool, f: T -> U)
    ensures forall x :: x in s && keep(x) ==> f(x) in Map(Filter(s, keep), f)
  {
    var kept := Filter(s, keep);
    var r := Map(kept, f);
    forall x | x in s && keep(x) ensures f(x) in r {
      var k :| 0 <= k < |kept| && kept[k] == x;
      assert r[k] == f(x);
    }
  }

  /** Provenance composes: a row built from a row built from a source row is built from the source row. */
  lemma ProvenanceCompose<A, B, C>(t: seq<C>, mid: seq<B>, src: seq<A>, g: B -> C, f: A -> B, ok: A -> bool)
    requires forall v :: v in t ==> exists y :: y in mid && v == g(y)
    requires forall y :: y in mid ==> exists x :: x in src && ok(x) && y == f(x)
    ensures forall v :: v in t ==> exists x :: x in src && ok(x) && v == g(f(x))
  {
    forall v | v in t ensures exists x :: x in src && ok(x) && v == g(f(x)) {
      var y :| y in mid && v == g(y);
      var x :| x in src && ok(x) && y == f(x);
    }
  }

  /**
   Filtering with a predicate is boolean indexing with its mask: the rows at
   the mask's true positions, in their original order.
   */
  lemma {:induction false} FilterIsWhere<T>(s: seq<T>, keep: T -> bool)
    ensures Filter(s, keep) == Where(s, Mask(s, keep))
  {
    if |s| > 0 {
      var n := |s| - 1;
      var m := Mask(s, keep);
      FilterIsWhere(s[..n], keep);
      WhereSnoc(s, m);
      assert m[..n] == Mask(s[..n], keep);
    }
  }

  /** `s[i]` has no earlier row with the same key. */
  predicate IsFirst<T, K(==)>(s: seq<T>, key: T -> K, i: int)
    requires 0 <= i < |s|
  {
    forall j :: 0 <= j < i ==> key(s[j]) != key(s[i])
  }

  /** `s[i]` has no later row with the same key. */
  predicate IsLast<T, K(==)>(s: seq<T>, key: T -> K, i: int)
    requires 0 <= i < |s|
  {
    forall j :: i < j < |s| ==> key(s[j]) != key(s[i])
  }

  /** The row at `i` is the one `drop_duplicates(keep)` keeps for its key. */
  predicate Survives<T, K(==)>(s: seq<T>, key: T -> K, keep: Keep, i: int)
    requires 0 <= i < |s|
  {
    if keep == First then IsFirst(s, key, i) else IsLast(s, key, i)
  }

  /**
   `duplicated(keep='first')` as a hash-table scan from the left: a row is
   flagged when its key was already seen.
   */
  function DuplicatedFirst<T, K(==)>(s: seq<T>, key: T -> K, seen: set<K>): (d: seq<bool>)
    ensures |d| == |s|
    ensures forall i :: 0 <= i < |s| ==>
      (d[i] <==> key(s[i]) in seen || exists j :: 0 <= j < i && key(s[j]) == key(s[i]))
  {
    if |s| == 0 then []
    else
      var rest := DuplicatedFirst(s[1..], key, seen + {key(s[0])});
      FirstScanStep(s, key, seen, rest);
      [key(s[0]) in seen] + rest
  }

  /** One step of the left-to-right scan: the flags of `s[1..]`, with `s[0]`'s key seen, shifted by one. */
  lemma FirstScanStep<T, K>(s: seq<T>, key: T -> K, seen: set<K>, rest: seq<bool>)
    requires |s| > 0 && |rest| == |s| - 1
    requires forall i :: 0 <= i < |rest| ==>
      (rest[i] <==> key(s[1..][i]) in seen + {key(s[0])} || exists j :: 0 <= j < i && key(s[1..][j]) == key(s[1..][i]))
    ensures var d := [key(s[0]) in seen] + rest;
      forall i :: 0 <= i < |s| ==> (d[i] <==> key(s[i]) in seen || exists j :: 0 <= j < i && key(s[j]) == key(s[i]))
  {
    var d := [key(s[0]) in seen] + rest;
    var t := s[1..];
    forall i | 0 <= i < |s|
      ensures d[i] <==> key(s[i]) in seen || exists j :: 0 <= j < i && key(s[j]) == key(s[i])
    {
      if i > 0 {
        assert d[i] == rest[i - 1] && s[i] == t[i - 1];
        if exists j :: 0 <= j < i - 1 && key(t[j]) == key(t[i - 1]) {
          var j :| 0 <= j < i - 1 && key(t[j]) == key(t[i - 1]);
          assert s[j + 1] == t[j];
        }
        if exists j :: 0 <= j < i && key(s[j]) == key(s[i]) {
          var j :| 0 <= j < i && key(s[j]) == key(s[i]);
          if j > 0 {
            assert t[j - 1] == s[j];
          }
        }
      }
    }
  }

  /**
   `duplicated(keep='last')` as the same scan from the right: a row is
   flagged when its key occurs again later.
   */
  function DuplicatedLast<T, K(==)>(s: seq<T>, key: T -> K, seen: set<K>): (d: seq<bool>)
    ensures |d| == |s|
    ensures forall i :: 0 <= i < |s| ==>
      (d[i] <==> key(s[i]) in seen || exists j :: i < j < |s| && key(s[j]) == key(s[i]))
  {
    if |s| == 0 then []
    else
      var n := |s| - 1;
      var init := DuplicatedLast(s[..n], key, seen + {key(s[n])});
      var d := init + [key(s[n]) in seen];
      assert forall i :: 0 <= i < n ==> d[i] == init[i] && s[i] == s[..n][i];
      d
  }

  /** pandas `duplicated(subset, keep)`, starting from an empty hash table. */
  function Duplicated<T, K(==)>(s: seq<T>, key: T -> K, keep: Keep): (d: seq<bool>)
    ensures |d| == |s|
    ensures forall i :: 0 <= i < |s| ==> (d[i] <==> !Survives(s, key, keep, i))
  {
    if keep == First then DuplicatedFirst(s, key, {}) else DuplicatedLast(s, key, {})
  }

  /** Positions `drop_duplicates` keeps: exactly the surviving occurrences, in order. */
  function Survivors<T, K(==)>(s: seq<T>, key: T -> K, keep: Keep): (p: seq<nat>)
    ensures forall k :: 0 <= k < |p| ==> p[k] < |s| && Survives(s, key, keep, p[k])
    ensures forall k, l :: 0 <= k < l < |p| ==> p[k] < p[l]
    ensures forall i :: 0 <= i < |s| && Survives(s, key, keep, i) ==> i in p
  {
    var d := Duplicated(s, key, keep);
    Kept(seq(|s|, i requires 0 <= i < |s| => !d[i]))
  }

  /** Every row has a surviving row with its key, at or before it when keeping the first. */
  lemma {:induction false} FirstWitness<T, K>(s: seq<T>, key: T -> K, i: nat)
    requires i < |s|
    ensures exists j :: 0 <= j <= i && IsFirst(s, key, j) && key(s[j]) == key(s[i])
    decreases i
  {
    if !IsFirst(s, key, i) {
      var j :| 0 <= j < i && key(s[j]) == key(s[i]);
      FirstWitness(s, key, j);
    }
  }

  /** Every row has a surviving row with its key, at or after it when keeping the last. */
  lemma {:induction false} LastWitness<T, K>(s: seq<T>, key: T -> K, i: nat)
    requires i < |s|
    ensures exists j :: i <= j < |s| && IsLast(s, key, j) && key(s[j]) == key(s[i])
    decreases |s| - i
  {
    if !IsLast(s, key, i) {
      var j :| i < j < |s| && key(s[j]) == key(s[i]);
      LastWitness(s, key, j);
    }
  }

  /** The rows at the surviving positions, in order. */
  function Gather<T>(s: seq<T>, p: seq<nat>): (r: seq<T>)
    requires forall k :: 0 <= k < |p| ==> p[k] < |s|
    ensures |r| == |p|
    ensures forall k :: 0 <= k < |r| ==> r[k] == s[p[k]]
  {
    if |p| == 0 then [] else Gather(s, p[..|p| - 1]) + [s[p[|p| - 1]]]
  }

  /** Kept rows have pairwise distinct keys. */
  lemma SurvivorKeysDistinct<T, K>(s: seq<T>, key: T -> K, keep: Keep)
    ensures var r := Gather(s, Survivors(s, key, keep));
      forall a, b :: 0 <= a < b < |r| ==> key(r[a]) != key(r[b])
  {
    var p := Survivors(s, key, keep);
    var r := Gather(s, p);
    forall a, b | 0 <= a < b < |r| ensures key(r[a]) != key(r[b]) {
      assert p[a] < p[b];
      assert Survives(s, key, keep, p[a]) && Survives(s, key, keep, p[b]);
    }
  }

  /** Every row's key is carried by a surviving row. */
  lemma SurvivorFor<T, K>(s: seq<T>, key: T -> K, keep: Keep, i: nat)
    requires i < |s|
    ensures exists j :: 0 <= j < |s| && Survives(s, key, keep, j) && key(s[j]) == key(s[i])
  {
    if keep == First {
      FirstWitness(s, key, i);
      var j :| 0 <= j <= i && IsFirst(s, key, j) && key(s[j]) == key(s[i]);
      assert Survives(s, key, keep, j);
    } else {
      LastWitness(s, key, i);
      var j :| i <= j < |s| && IsLast(s, key, j) && key(s[j]) == key(s[i]);
      assert Survives(s, key, keep, j);
    }
  }

  /** Every key of the input is still carried by some kept row. */
  lemma SurvivorKeysCover<T, K>(s: seq<T>, key: T -> K, keep: Keep)
    ensures var r := Gather(s, Survivors(s, key, keep));
      forall x :: x in s ==> exists y :: y in r && key(y) == key(x)
  {
    var p := Survivors(s, key, keep);
    var r := Gather(s, p);
    forall x | x in s ensures exists y :: y in r && key(y) == key(x) {
      var i :| 0 <= i < |s| && s[i] == x;
      SurvivorFor(s, key, keep, i);
      var j :| 0 <= j < |s| && Survives(s, key, keep, j) && key(s[j]) == key(s[i]);
      assert j in p;
      var k :| 0 <= k < |p| && p[k] == j;
      assert r[k] == s[j];
      assert r[k] in r;
    }
  }

  /**
   `drop_duplicates(subset, keep)`: the rows that are the first (or last)
   of their key, in their original order. No two kept rows share a key,
   and every key of the input is still represented.
   */
  function DropDuplicates<T, K(==)>(s: seq<T>, key: T -> K, keep: Keep): (r: seq<T>)
    ensures |r| <= |s|
    ensures forall x :: x in r ==> x in s
    ensures forall a, b :: 0 <= a < b < |r| ==> key(r[a]) != key(r[b])
  {
    SurvivorsBound(s, key, keep);
    SurvivorKeysDistinct(s, key, keep);
    Gather(s, Survivors(s, key, keep))
  }

  /** Every row of `r` stands in `s` at a position that `drop_duplicates(keep)` keeps. */
  ghost predicate FromSurvivors<T, K>(s: seq<T>, key: T -> K, keep: Keep, r: seq<T>) {
    forall x :: x in r ==> exists i :: 0 <= i < |s| && s[i] == x && Survives(s, key, keep, i)
  }

  /**
   Which rows `drop_duplicates` keeps, as rows: a row is kept exactly when it
   stands at a position that is the first (or last) of its key.
   */
  lemma DropDuplicatesKeepsSurvivorRows<T, K>(s: seq<T>, key: T -> K, keep: Keep)
    ensures FromSurvivors(s, key, keep, DropDuplicates(s, key, keep))
    ensures forall i :: 0 <= i < |s| && Survives(s, key, keep, i) ==> s[i] in DropDuplicates(s, key, keep)
  {
    var r := DropDuplicates(s, key, keep);
    var p := Survivors(s, key, keep);
    assert |r| == |p| && forall k :: 0 <= k < |r| ==> r[k] == s[p[k]];
    forall x | x in r ensures exists i :: 0 <= i < |s| && s[i] == x && Survives(s, key, keep, i) {
      var k :| 0 <= k < |r| && r[k] == x;
      assert s[p[k]] == x && Survives(s, key, keep, p[k]);
    }
    forall i | 0 <= i < |s| && Survives(s, key, keep, i) ensures s[i] in r {
      var k :| 0 <= k < |p| && p[k] == i;
      assert r[k] == s[i];
    }
  }

  /** With `keep='first'`, every first occurrence of a key is kept, and the kept rows are those occurrences in order. */
  lemma DropDuplicatesFirst<T, K>(s: seq<T>, key: T -> K)
    ensures forall i :: 0 <= i < |s| && IsFirst(s, key, i) ==> s[i] in DropDuplicates(s, key, First)
    ensures var r := DropDuplicates(s, key, First); var p := Survivors(s, key, First);
      |r| == |p| && forall k :: 0 <= k < |r| ==> r[k] == s[p[k]]
  {
    DropDuplicatesKeepsSurvivorRows(s, key, First);
    DropDuplicatesKeepsSurvivors(s, key, First);
  }

  /** With `keep='last'`, every last occurrence of a key is kept. */
  lemma DropDuplicatesLast<T, K>(s: seq<T>, key: T -> K)
    ensures forall i :: 0 <= i < |s| && IsLast(s, key, i) ==> s[i] in DropDuplicates(s, key, Last)
  {
    DropDuplicatesKeepsSurvivorRows(s, key, Last);
  }

  /** Every key of the input is still represented after `drop_duplicates`. */
  lemma DropDuplicatesCovers<T, K>(s: seq<T>, key: T -> K, keep: Keep)
    ensures forall x :: x in s ==> exists y :: y in DropDuplicates(s, key, keep) && key(y) == key(x)
  {
    SurvivorKeysCover(s, key, keep);
  }

  /** The representative of one input row's key. */
  lemma DropDuplicatesCoversRow<T, K>(s: seq<T>, key: T -> K, keep: Keep, x: T)
    requires x in s
    ensures exists y :: y in DropDuplicates(s, key, keep) && key(y) == key(x)
  {
    DropDuplicatesCovers(s, key, keep);
  }

  /**
   Which rows `drop_duplicates` keeps: the k-th kept row is the row at the
   k-th surviving position, i.e. the first (or last) row of each key, in
   input order.
   */
  lemma DropDuplicatesKeepsSurvivors<T, K>(s: seq<T>, key: T -> K, keep: Keep)
    ensures var r := DropDuplicates(s, key, keep); var p := Survivors(s, key, keep);
      |r| == |p| && forall k :: 0 <= k < |r| ==> r[k] == s[p[k]]
  {
  }

  /** A strictly increasing list of positions below `n` has at most `n` entries. */
  lemma {:induction false} IncreasingBound(p: seq<nat>, n: nat)
    requires forall k :: 0 <= k < |p| ==> p[k] < n
    requires forall k, l :: 0 <= k < l < |p| ==> p[k] < p[l]
    ensures |p| <= n
    decreases n
  {
    if |p| > 0 {
      var q := p[..|p| - 1];
      assert forall k :: 0 <= k < |q| ==> q[k] < p[|p| - 1] < n;
      IncreasingBound(q, n - 1);
    }
  }

  lemma SurvivorsBound<T, K>(s: seq<T>, key: T -> K, keep: Keep)
    ensures |Survivors(s, key, keep)| <= |s|
  {
    IncreasingBound(Survivors(s, key, keep), |s|);
  }

  /** No two rows of `s` share a key. */
  predicate DistinctBy<T, K(==)>(s: seq<T>, key: T -> K) {
    forall a, b :: 0 <= a < b < |s| ==> key(s[a]) != key(s[b])
  }

  /** Boolean indexing never makes two rows share a key. */
  lemma {:induction false} FilterKeepsDistinct<T, K>(s: seq<T>, keep: T -> bool, key: T -> K)
    requires DistinctBy(s, key)
    ensures DistinctBy(Filter(s, keep), key)
  {
    if |s| > 0 {
      var n := |s| - 1;
      assert DistinctBy(s[..n], key);
      FilterKeepsDistinct(s[..n], keep, key);
      forall x | x in Filter(s[..n], keep) ensures key(x) != key(s[n]) {
        var k :| 0 <= k < n && s[k] == x;
      }
    }
  }

  /** Appending a table whose keys the first one lacks keeps keys distinct. */
  lemma ConcatKeepsDistinct<T, K>(x: seq<T>, y: seq<T>, key: T -> K)
    requires DistinctBy(x, key) && DistinctBy(y, key)
    requires forall a, b :: a in x && b in y ==> key(a) != key(b)
    ensures DistinctBy(x + y, key)
  {
    var r := x + y;
    forall a, b | 0 <= a < b < |r| ensures key(r[a]) != key(r[b]) {
      if a < |x| && b >= |x| {
        assert r[a] == x[a] && r[b] == y[b - |x|];
        assert x[a] in x && y[b - |x|] in y;
      } else if a >= |x| {
        assert r[a] == y[a - |x|] && r[b] == y[b - |x|];
      }
    }
  }

  /** Number of rows of `s` whose key is `k` (the size of `k`'s group in `groupby`). */
  function CountKey<T, K(==)>(s: seq<T>, key: T -> K, k: K): (n: nat)
    ensures n <= |s|
  {
    if |s| == 0 then 0
    else CountKey(s[..|s| - 1], key, k) + (if key(s[|s| - 1]) == k then 1 else 0)
  }

  /** Position `i` is the only one of `s` whose key is `k`. */
  predicate OnlyAt<T, K(==)>(s: seq<T>, key: T -> K, k: K, i: int) {
    0 <= i < |s| && key(s[i]) == k && forall j :: 0 <= j < |s| && key(s[j]) == k ==> j == i
  }

  /** A group has exactly one row iff one position carries the key and no other does. */
  lemma {:induction false} CountKeyOne<T, K>(s: seq<T>, key: T -> K, k: K)
    ensures CountKey(s, key, k) == 1 <==> exists i :: OnlyAt(s, key, k, i)
  {
    if |s| > 0 {
      var n := |s| - 1;
      var init := s[..n];
      CountKeyOne(init, key, k);
      CountKeyZero(init, key, k);
      assert forall j :: 0 <= j < n ==> init[j] == s[j];
      if key(s[n]) == k {
        assert CountKey(s, key, k) == CountKey(init, key, k) + 1;
        if CountKey(s, key, k) == 1 {
          assert OnlyAt(s, key, k, n);
        }
        if exists i :: OnlyAt(s, key, k, i) {
          var i :| OnlyAt(s, key, k, i);
          assert i == n;
          assert forall j :: 0 <= j < n ==> key(init[j]) != k;
        }
      } else {
        assert CountKey(s, key, k) == CountKey(init, key, k);
        if CountKey(s, key, k) == 1 {
          var i :| OnlyAt(init, key, k, i);
          assert OnlyAt(s, key, k, i);
        }
        if exists i :: OnlyAt(s, key, k, i) {
          var i :| OnlyAt(s, key, k, i);
          assert OnlyAt(init, key, k, i);
        }
      }
    }
  }

  /** A group is empty iff no row carries the key. */
  lemma {:induction false} CountKeyZero<T, K>(s: seq<T>, key: T -> K, k: K)
    ensures CountKey(s, key, k) == 0 <==> forall j :: 0 <= j < |s| ==> key(s[j]) != k
  {
    if |s| > 0 {
      var n := |s| - 1;
      CountKeyZero(s[..n], key, k);
      assert forall j :: 0 <= j < n ==> s[..n][j] == s[j];
    }
  }
}

=== FILE: records.dfy ===
/**
 The tender table's rows. One `Row` is one line of the combined sheet that
 `clean_tender_data` receives; text columns are `Option<string>` with `None`
 for an empty (NaN) cell, and the price columns keep whatever Python object
 the sheet held, since `x_to_eur` branches on that object's type.
 */
module Records {
  import opened Wrappers

  /** A cell as `x_to_eur` sees it: NaN, an int or float, a str, or anything else. */
  datatype Value = NaN | Num(x: real) | Text(s: string) | Other

  /** `pd.notnull` on a numeric column: the amount, if there is one. */
  function AsAmount(v: Value): (a: Option<real>)
    ensures a.Some? <==> v.Num?
  {
    if v.Num? then Some(v.x) else None
  }

  /** Descriptive tender columns the pipeline carries but never inspects. */
  datatype Notice = Notice(
    published: Option<string>,
    dateUntil: Option<string>,
    buyerCity: Option<string>,
    cpvCodes: Option<string>,
    description: Option<string>,
    descriptionEn: Option<string>,
    dateAdded: Option<string>)

  /** Supplier address columns, carried into the award table. */
  datatype SupplierInfo = SupplierInfo(
    supplierId: Option<string>,
    country: Option<string>,
    city: Option<string>,
    street: Option<string>,
    postcode: Option<string>)

  /**
   One tender, lot or award line. `id` is the `ID` column, assumed to be the
   sheet's first, which `clean_tender_data` leaves out of its duplicate test;
   `kind` is the `type` column (tender, contract, awarded tender, ...).
   */
  datatype Row = Row(
    id: string,
    product: Option<string>,
    kind: Option<string>,
    status: Option<string>,
    procedure: Option<string>,
    year: Option<real>,
    date: Option<string>,
    title: Option<string>,
    bids: Value,
    buyer: Option<string>,
    buyerCountry: Option<string>,
    source: Option<string>,
    tedId: Option<string>,
    contractNumber: Option<string>,
    lot: Option<string>,
    price: Value,
    priceCurrency: Option<string>,
    priceEur: Value,
    priceLot: Value,
    priceLotCurrency: Option<string>,
    priceLotEur: Value,
    supplier: Option<string>,
    supplierInfo: SupplierInfo,
    notice: Notice)

  /** `type == "contract"` (false for a missing type). */
  predicate IsContract(r: Row) {
    r.kind == Some("contract")
  }

  /** `type == "awarded tender"`. */
  predicate IsAwarded(r: Row) {
    r.kind == Some("awarded tender")
  }

  /** Every column except the first: the subset `drop_duplicates(columns[1:])` compares. */
  function WithoutId(r: Row): Row {
    r.(id := "")
  }
}

=== FILE: tenders.dfy ===
/**
 `filter_just_tenders`: four overlapping provenance slices of the cleaned
 table, each deduplicated on its own key, concatenated, deduplicated once
 more across slices and projected onto the published tender columns.
 */
module Tenders {
  import opened Wrappers
  import opened Text
  import opened Records
  import opened Frames
  import opened Cleaning

  /** A row of the tender table: the `keep_columns` of a cleaned row. */
  datatype TenderView = TenderView(
    id: string,
    product: Option<string>,
    kind: Option<string>,
    status: Option<string>,
    year: Option<real>,
    date: Option<string>,
    procedure: Option<string>,
    title: Option<string>,
    bids: Value,
    price: Value,
    priceCurrency: Option<string>,
    priceEur: Value,
    buyer: Option<string>,
    buyerCountry: Option<string>,
    source: Option<string>,
    notice: Notice)

  /** `tenders[keep_columns]` on one row: the columns of the final deduplication are among those kept. */
  function Project(r: Row): (v: TenderView)
    ensures ViewKey(v) == FinalKey(r)
  {
    TenderView(r.id, r.product, r.kind, r.status, r.year, r.date, r.procedure, r.title, r.bids,
               r.price, r.priceCurrency, r.priceEur, r.buyer, r.buyerCountry, r.source, r.notice)
  }

  /** Why the function cannot produce a table. */
  datatype TendersError =
    /** `~df["buyer_country"].str.contains(...)` raises a TypeError on a NaN cell. */
    | BuyerCountryMissing

  /** The provenance slices, in the order they are concatenated. */
  datatype Provenance = Ted | ContractLike | Macedonian | OtherSource

  /** `str.contains("MK|AL")` on the buyer country. */
  predicate MentionsMkOrAl(c: string) {
    Contains(c, "MK") || Contains(c, "AL")
  }

  /** Membership of a row in a slice, as the four boolean masks of `filter_just_tenders` state it. */
  predicate InSlice(p: Provenance, r: Row) {
    match p
    case Ted => r.tedId.Some?
    case ContractLike => IsContract(r) || r.buyerCountry == Some("AL")
    case Macedonian => r.buyerCountry == Some("MK") && !IsContract(r)
    case OtherSource =>
      r.tedId.None? && !IsContract(r) && r.buyerCountry.Some? && !MentionsMkOrAl(r.buyerCountry.value)
  }

  /** A slice's mask as a row predicate. */
  function InSliceOf(p: Provenance): Row -> bool {
    r => InSlice(p, r)
  }

  /**
   `df[mask]` for one slice: the cleaned rows at the mask's true positions,
   in table order, so exactly the rows satisfying the mask.
   */
  function Slice(df: seq<Row>, p: Provenance): (s: seq<Row>)
    ensures forall r :: r in s <==> r in df && InSlice(p, r)
    ensures s == Where(df, Mask(df, InSliceOf(p)))
  {
    FilterIsWhere(df, InSliceOf(p));
    Filter(df, InSliceOf(p))
  }

  function TedKey(r: Row): Option<string> { r.tedId }
  function ContractKey(r: Row): (Option<string>, Value, Option<string>, Option<string>) { (r.title, r.price, r.buyer, r.date) }
  function MacedonianKey(r: Row): (Option<string>, Option<string>) { (r.source, r.lot) }
  function OtherKey(r: Row): (Value, Option<string>) { (r.price, r.source) }
  function FinalKey(r: Row): (Option<string>, Value, Option<string>) { (r.title, r.priceEur, r.source) }

  /** Step 1: TED rows, one per `TED_id`, keeping the last. */
  function TedRows(df: seq<Row>): (s: seq<Row>)
    ensures forall r :: r in s ==> r in Slice(df, Ted)
    ensures FromSurvivors(Slice(df, Ted), TedKey, Last, s)
  {
    DropDuplicatesKeepsSurvivorRows(Slice(df, Ted), TedKey, Last);
    DropDuplicates(Slice(df, Ted), TedKey, Last)
  }

  /**
   No two TED rows share a `TED_id`, every TED id of the slice is represented,
   and the last row of the slice with each `TED_id` is the one kept.
   */
  lemma TedRowsDeduplicated(df: seq<Row>)
    ensures DistinctBy(TedRows(df), TedKey)
    ensures forall i :: 0 <= i < |Slice(df, Ted)| && IsLast(Slice(df, Ted), TedKey, i) ==>
      Slice(df, Ted)[i] in TedRows(df)
    ensures forall r :: r in Slice(df, Ted) ==> exists t :: t in TedRows(df) && TedKey(t) == TedKey(r)
  {
    DropDuplicatesCovers(Slice(df, Ted), TedKey, Last);
    DropDuplicatesLast(Slice(df, Ted), TedKey);
  }

  /** Step 2: contract or Albanian rows, one per (title, price, buyer, date), keeping the first. */
  function ContractRows(df: seq<Row>): (s: seq<Row>)
    ensures forall r :: r in s ==> r in Slice(df, ContractLike)
    ensures FromSurvivors(Slice(df, ContractLike), ContractKey, First, s)
  {
    DropDuplicatesKeepsSurvivorRows(Slice(df, ContractLike), ContractKey, First);
    DropDuplicates(Slice(df, ContractLike), ContractKey, First)
  }

  /**
   No two contract rows share (title, price, buyer, date), every such key of
   the slice is represented, and the first row of the slice with each key is
   the one kept.
   */
  lemma ContractRowsDeduplicated(df: seq<Row>)
    ensures DistinctBy(ContractRows(df), ContractKey)
    ensures forall i :: 0 <= i < |Slice(df, ContractLike)| && IsFirst(Slice(df, ContractLike), ContractKey, i) ==>
      Slice(df, ContractLike)[i] in ContractRows(df)
    ensures forall r :: r in Slice(df, ContractLike) ==> exists t :: t in ContractRows(df) && ContractKey(t) == ContractKey(r)
  {
    DropDuplicatesCovers(Slice(df, ContractLike), ContractKey, First);
    DropDuplicatesFirst(Slice(df, ContractLike), ContractKey);
  }

  /** Step 3: Macedonian non-contract rows, one per (source, lot), keeping the last. */
  function MacedonianRows(df: seq<Row>): (s: seq<Row>)
    ensures forall r :: r in s ==> r in Slice(df, Macedonian)
    ensures FromSurvivors(Slice(df, Macedonian), MacedonianKey, Last, s)
  {
    DropDuplicatesKeepsSurvivorRows(Slice(df, Macedonian), MacedonianKey, Last);
    DropDuplicates(Slice(df, Macedonian), MacedonianKey, Last)
  }

  /**
   No two Macedonian rows share (source, lot), every such key of the slice is
   represented, and the last row of the slice with each key is the one kept.
   */
  lemma MacedonianRowsDeduplicated(df: seq<Row>)
    ensures DistinctBy(MacedonianRows(df), MacedonianKey)
    ensures forall i :: 0 <= i < |Slice(df, Macedonian)| && IsLast(Slice(df, Macedonian), MacedonianKey, i) ==>
      Slice(df, Macedonian)[i] in MacedonianRows(df)
    ensures forall r :: r in Slice(df, Macedonian) ==> exists t :: t in MacedonianRows(df) && MacedonianKey(t) == MacedonianKey(r)
  {
    DropDuplicatesCovers(Slice(df, Macedonian), MacedonianKey, Last);
    DropDuplicatesLast(Slice(df, Macedonian), MacedonianKey);
  }

  /**
   Step 4: rows with no TED id, not contracts, from neither exception country,
   one per (price, source), keeping the last. Missing prices and sources
   compare equal here, so unrelated rows can be merged.
   */
  function OtherRows(df: seq<Row>): (s: seq<Row>)
    ensures forall r :: r in s ==> r in Slice(df, OtherSource)
    ensures FromSurvivors(Slice(df, OtherSource), OtherKey, Last, s)
  {
    DropDuplicatesKeepsSurvivorRows(Slice(df, OtherSource), OtherKey, Last);
    DropDuplicates(Slice(df, OtherSource), OtherKey, Last)
  }

  /**
   No two remaining rows share (price, source), every such key of the slice is
   represented, and the last row of the slice with each key is the one kept.
   */
  lemma OtherRowsDeduplicated(df: seq<Row>)
    ensures DistinctBy(OtherRows(df), OtherKey)
    ensures forall i :: 0 <= i < |Slice(df, OtherSource)| && IsLast(Slice(df, OtherSource), OtherKey, i) ==>
      Slice(df, OtherSource)[i] in OtherRows(df)
    ensures forall r :: r in Slice(df, OtherSource) ==> exists t :: t in OtherRows(df) && OtherKey(t) == OtherKey(r)
  {
    DropDuplicatesCovers(Slice(df, OtherSource), OtherKey, Last);
    DropDuplicatesLast(Slice(df, OtherSource), OtherKey);
  }

  /** The four slices' survivors concatenated (`pd.concat`). */
  function Combined(df: seq<Row>): (c: seq<Row>)
    ensures forall r :: r in c ==> r in df
  {
    TedRows(df) + ContractRows(df) + MacedonianRows(df) + OtherRows(df)
  }

  /** The cross-slice pass over the concatenated slices `c`, projected onto the published columns. */
  function FinalTable(c: seq<Row>): (out: seq<TenderView>)
    ensures |out| <= |c|
    ensures forall v :: v in out ==> exists i :: 0 <= i < |c| && v == Project(c[i]) && IsFirst(c, FinalKey, i)
  {
    var kept := DropDuplicates(c, FinalKey, First);
    DropDuplicatesKeepsSurvivorRows(c, FinalKey, First);
    ProjectedRows(kept);
    ProjectAll(kept)
  }

  /** Each projected row is the projection of one of the rows. */
  lemma ProjectedRows(s: seq<Row>)
    ensures forall v :: v in ProjectAll(s) ==> exists x :: x in s && v == Project(x)
  {
    var out := ProjectAll(s);
    forall v | v in out ensures exists x :: x in s && v == Project(x) {
      var i :| 0 <= i < |out| && out[i] == v;
      assert s[i] in s;
    }
  }

  /**
   The cross-slice pass keeps the first concatenated row of each
   (title, price_EUR, source): a row that several slices hold is published
   as the copy of the earliest slice.
   */
  lemma FinalTableKeepsFirst(c: seq<Row>)
    ensures forall i :: 0 <= i < |c| && IsFirst(c, FinalKey, i) ==> Project(c[i]) in FinalTable(c)
  {
    var kept := DropDuplicates(c, FinalKey, First);
    DropDuplicatesFirst(c, FinalKey);
    forall i | 0 <= i < |c| && IsFirst(c, FinalKey, i) ensures Project(c[i]) in FinalTable(c) {
      var k :| 0 <= k < |kept| && kept[k] == c[i];
      assert FinalTable(c)[k] == Project(c[i]);
    }
  }

  /** The cross-slice key of a published row. */
  function ViewKey(v: TenderView): (Option<string>, Value, Option<string>) { (v.title, v.priceEur, v.source) }

  /** No two rows of the table share (title, price_EUR, source). */
  lemma FinalTableDistinct(c: seq<Row>)
    ensures DistinctBy(FinalTable(c), ViewKey)
  {
    var tenders := DropDuplicates(c, FinalKey, First);
    var out := FinalTable(c);
    forall a, b | 0 <= a < b < |out| ensures ViewKey(out[a]) != ViewKey(out[b]) {
      assert ViewKey(out[a]) == FinalKey(tenders[a]);
      assert ViewKey(out[b]) == FinalKey(tenders[b]);
    }
  }

  /** Every row of the table is the `keep_columns` projection of a concatenated row. */
  lemma FinalTableFromRows(c: seq<Row>)
    ensures forall v :: v in FinalTable(c) ==> exists x :: x in c && v == Project(x)
  {
    var tenders := DropDuplicates(c, FinalKey, First);
    var out := FinalTable(c);
    forall v | v in out ensures exists x :: x in c && v == Project(x) {
      var i :| 0 <= i < |out| && out[i] == v;
      assert tenders[i] in tenders;
    }
  }

  /** Every concatenated row is represented in the table by a row with its (title, price_EUR, source). */
  lemma FinalTableCovers(c: seq<Row>)
    ensures forall x :: x in c ==> exists v :: v in FinalTable(c) && ViewKey(v) == FinalKey(x)
  {
    forall x | x in c ensures exists v :: v in FinalTable(c) && ViewKey(v) == FinalKey(x) {
      FinalTableCoversRow(c, x);
    }
  }

  lemma FinalTableCoversRow(c: seq<Row>, x: Row)
    requires x in c
    ensures exists v :: v in FinalTable(c) && ViewKey(v) == FinalKey(x)
  {
    var tenders := DropDuplicates(c, FinalKey, First);
    var out := FinalTable(c);
    DropDuplicatesCoversRow(c, FinalKey, First, x);
    var y :| y in tenders && FinalKey(y) == FinalKey(x);
    var i :| 0 <= i < |tenders| && tenders[i] == y;
    assert ViewKey(out[i]) == FinalKey(x);
    assert out[i] in out;
  }

  function ProjectAll(s: seq<Row>): (out: seq<TenderView>)
    ensures |out| == |s| && forall i :: 0 <= i < |out| ==> out[i] == Project(s[i])
  {
    if |s| == 0 then [] else [Project(s[0])] + ProjectAll(s[1..])
  }

  /** The cleaned table has a text buyer country everywhere, so the `str.contains` mask is boolean. */
  predicate CountriesPresent(df: seq<Row>) {
    forall r :: r in df ==> r.buyerCountry.Some?
  }

  /**
   `filter_just_tenders(df)`: clean, slice, deduplicate, concatenate and
   run the cross-slice pass. It fails exactly when a cleaned row has no
   buyer country, where the `~str.contains` mask of line 157 raises.
   */
  function FilterJustTenders(raw: seq<Row>): (r: Result<seq<TenderView>, TendersError>)
    ensures r.Failure? <==> !CountriesPresent(CleanTenderData(raw))
    ensures r.Success? ==> r.value == TenderTable(CleanTenderData(raw))
  {
    TendersOf(CleanTenderData(raw))
  }

  /**
   What a successful run publishes: no two rows share (title, price_EUR,
   source), and every row is the `keep_columns` projection of an input row
   that passes the scope filter, normalized.
   */
  lemma FilterJustTendersSound(raw: seq<Row>)
    ensures FilterJustTenders(raw).Success? ==> DistinctBy(FilterJustTenders(raw).value, ViewKey)
    ensures FilterJustTenders(raw).Success? ==> forall v :: v in FilterJustTenders(raw).value ==>
      exists x :: x in raw && InScope(x) && v == Project(Normalize(x))
  {
    var r := FilterJustTenders(raw);
    if r.Success? {
      TableFromInput(raw, CleanTenderData(raw), r.value);
    }
  }

  lemma TableFromInput(raw: seq<Row>, df: seq<Row>, t: seq<TenderView>)
    requires df == CleanTenderData(raw) && t == TenderTable(df)
    ensures forall v :: v in t ==> exists x :: x in raw && InScope(x) && v == Project(Normalize(x))
  {
    TendersComeFromCleanedRows(df);
    CleanedRowsComeFromInput(raw);
    ProvenanceCompose(t, df, raw, Project, Normalize, InScope);
  }

  /** The slicing and deduplication on a cleaned table, failing where the country mask raises. */
  function TendersOf(df: seq<Row>): (r: Result<seq<TenderView>, TendersError>)
    ensures r.Failure? <==> !CountriesPresent(df)
    ensures r.Success? ==> r.value == TenderTable(df)
  {
    if CountriesPresent(df) then Success(TenderTable(df)) else Failure(BuyerCountryMissing)
  }

  /** The published table built from a cleaned table: no two of its rows share (title, price_EUR, source). */
  function TenderTable(df: seq<Row>): (t: seq<TenderView>)
    ensures DistinctBy(t, ViewKey)
  {
    FinalTableDistinct(Combined(df));
    FinalTable(Combined(df))
  }

  /** Every row of the tender table is the `keep_columns` projection of a cleaned row. */
  lemma TendersComeFromCleanedRows(df: seq<Row>)
    ensures forall v :: v in TenderTable(df) ==> exists x :: x in df && v == Project(x)
  {
    forall v | v in TenderTable(df) ensures exists x :: x in df && v == Project(x) {
      TableRowFromCleanedRow(df, v);
    }
  }

  lemma TableRowFromCleanedRow(df: seq<Row>, v: TenderView)
    requires v in TenderTable(df)
    ensures exists x :: x in df && v == Project(x)
  {
    var c := Combined(df);
    FinalTableFromRows(c);
    var x :| x in c && v == Project(x);
    assert x in df;
  }

  /** A two-letter code mentions MK or AL only by being MK or AL. */
  lemma TwoLetterMention(c: string)
    requires |c| == 2
    ensures MentionsMkOrAl(c) <==> c == "MK" || c == "AL"
  {
    if Contains(c, "MK") {
      var i :| OccursAt(c, "MK", i);
      assert i == 0 && c[0..2] == c;
    }
    if Contains(c, "AL") {
      var i :| OccursAt(c, "AL", i);
      assert i == 0 && c[0..2] == c;
    }
    if c == "MK" { assert OccursAt(c, "MK", 0); }
    if c == "AL" { assert OccursAt(c, "AL", 0); }
  }

  /** With two-letter buyer-country codes every cleaned row falls in at least one slice. */
  lemma SlicesCoverEveryRow(df: seq<Row>, r: Row)
    requires r in df
    requires r.buyerCountry.Some? && |r.buyerCountry.value| == 2
    ensures exists p :: r in Slice(df, p)
  {
    TwoLetterMention(r.buyerCountry.value);
    if r.tedId.Some? { assert r in Slice(df, Ted); }
    else if IsContract(r) || r.buyerCountry == Some("AL") { assert r in Slice(df, ContractLike); }
    else if r.buyerCountry == Some("MK") { assert r in Slice(df, Macedonian); }
    else { assert r in Slice(df, OtherSource); }
  }

  /** Without the two-letter assumption a row can fall in no slice at all, for instance buyer country "MKD". */
  lemma LongCodeFallsThrough(r: Row)
    requires r.tedId.None? && !IsContract(r) && r.buyerCountry == Some("MKD")
    ensures forall p :: !InSlice(p, r)
  {
    assert OccursAt("MKD", "MK", 0);
  }

  /** The slices overlap: a TED row typed "contract" lands in both of the first two. */
  lemma TedContractInTwoSlices(df: seq<Row>, r: Row)
    requires r in df && r.tedId.Some? && IsContract(r)
    ensures r in Slice(df, Ted) && r in Slice(df, ContractLike)
  {
  }
}

=== FILE: text.dfy ===
/**
 String helpers standing in for the Python string methods the pipeline calls:
 `str.strip`, `str.replace(",", "")`, `str.lower`, `str.contains` and the
 text-to-number conversions of `float(...)` and `pd.to_numeric`.
 */
module Text {
  import opened Wrappers

  /**
   The characters `str.strip()` removes: those for which Python's
   `str.isspace()` holds, the ASCII controls tab to carriage return and
   the four information separators included.
   */
  predicate IsSpace(c: char) {
    || '\U{9}' <= c <= '\U{D}'
    || '\U{1C}' <= c <= '\U{20}'
    || c == '\U{85}' || c == '\U{A0}' || c == '\U{1680}'
    || '\U{2000}' <= c <= '\U{200A}'
    || c == '\U{2028}' || c == '\U{2029}' || c == '\U{202F}' || c == '\U{205F}' || c == '\U{3000}'
  }

  predicate AllSpace(s: string) {
    forall i :: 0 <= i < |s| ==> IsSpace(s[i])
  }

  /** Number of leading whitespace characters. */
  function LeadingSpace(s: string): (k: nat)
    ensures k <= |s|
    ensures AllSpace(s[..k])
    ensures k == |s| || !IsSpace(s[k])
  {
    if |s| > 0 && IsSpace(s[0]) then 1 + LeadingSpace(s[1..]) else 0
  }

  /** Number of trailing whitespace characters. */
  function TrailingSpace(s: string): (k: nat)
    ensures k <= |s|
    ensures AllSpace(s[|s| - k..])
    ensures k == |s| || !IsSpace(s[|s| - k - 1])
  {
    if |s| > 0 && IsSpace(s[|s| - 1]) then 1 + TrailingSpace(s[..|s| - 1]) else 0
  }

  /** `s.strip()`: the infix of `s` between its leading and trailing whitespace. */
  function Strip(s: string): (r: string)
    ensures LeadingSpace(s) + |r| <= |s|
    ensures r == s[LeadingSpace(s)..LeadingSpace(s) + |r|]
    ensures AllSpace(s[..LeadingSpace(s)]) && AllSpace(s[LeadingSpace(s) + |r|..])
    ensures r == [] || (!IsSpace(r[0]) && !IsSpace(r[|r| - 1]))
  {
    var i := LeadingSpace(s);
    if i == |s| then []
    else
      var j := TrailingSpace(s);
      s[i..|s| - j]
  }

  /** Stripping twice is stripping once. */
  lemma StripIdempotent(s: string)
    ensures Strip(Strip(s)) == Strip(s)
  {
    var r := Strip(s);
    if r != [] {
      assert LeadingSpace(r) == 0;
      assert TrailingSpace(r) == 0;
      assert r[0..|r|] == r;
    }
  }

  /** The leading whitespace run is the only one followed by a non-space or the end. */
  lemma {:induction false} LeadingSpaceExact(s: string, k: nat)
    requires k <= |s| && AllSpace(s[..k]) && (k == |s| || !IsSpace(s[k]))
    ensures LeadingSpace(s) == k
  {
    if k > 0 {
      assert IsSpace(s[..k][0]);
      var t := s[1..];
      assert t[..k - 1] == s[1..k];
      assert k - 1 == |t| || t[k - 1] == s[k];
      LeadingSpaceExact(t, k - 1);
    }
  }

  /** The trailing whitespace run is the only one preceded by a non-space or the start. */
  lemma {:induction false} TrailingSpaceExact(s: string, k: nat)
    requires k <= |s| && AllSpace(s[|s| - k..]) && (k == |s| || !IsSpace(s[|s| - k - 1]))
    ensures TrailingSpace(s) == k
  {
    if k > 0 {
      var n := |s| - 1;
      assert IsSpace(s[|s| - k..][k - 1]);
      var t := s[..n];
      assert t[|t| - (k - 1)..] == s[|s| - k..n];
      assert k - 1 == |t| || t[|t| - (k - 1) - 1] == s[|s| - k - 1];
      TrailingSpaceExact(t, k - 1);
    }
  }

  /**
   `Strip` is determined by its contract: text made of a whitespace run, a
   core that neither starts nor ends with whitespace, and another
   whitespace run strips to the core.
   */
  lemma StripUnique(s: string, a: string, m: string, b: string)
    requires s == a + m + b && AllSpace(a) && AllSpace(b)
    requires m == [] || (!IsSpace(m[0]) && !IsSpace(m[|m| - 1]))
    ensures Strip(s) == m
  {
    if m == [] {
      AllSpaceAppend(a, b);
      assert s == a + b && s[..|s|] == s;
      LeadingSpaceExact(s, |s|);
    } else {
      assert s[..|a|] == a;
      assert s[|a|] == m[0];
      LeadingSpaceExact(s, |a|);
      assert s[|s| - |b|..] == b;
      assert s[|s| - |b| - 1] == m[|m| - 1];
      TrailingSpaceExact(s, |b|);
      assert s[|a|..|s| - |b|] == m;
    }
  }

  /** Padding text with whitespace on both sides does not change what it strips to. */
  lemma StripPadded(a: string, x: string, b: string)
    requires AllSpace(a) && AllSpace(b)
    ensures Strip(a + x + b) == Strip(x)
  {
    var m := Strip(x);
    var lead, trail := StripSplit(x);
    AllSpaceAppend(a, lead);
    AllSpaceAppend(trail, b);
    Regroup(a, lead, m, trail, b);
    StripUnique(a + x + b, a + lead, m, trail + b);
  }

  /** Text is its leading whitespace, its stripped core and its trailing whitespace. */
  lemma StripSplit(x: string) returns (lead: string, trail: string)
    ensures x == lead + Strip(x) + trail && AllSpace(lead) && AllSpace(trail)
  {
    lead, trail := SplitAround(x, LeadingSpace(x), Strip(x));
  }

  lemma SplitAround(x: string, i: nat, m: string) returns (lead: string, trail: string)
    requires i + |m| <= |x| && m == x[i..i + |m|]
    requires AllSpace(x[..i]) && AllSpace(x[i + |m|..])
    ensures x == lead + m + trail && AllSpace(lead) && AllSpace(trail)
  {
    lead := x[..i];
    trail := x[i + |m|..];
    assert lead + m == x[..i + |m|];
  }

  lemma Regroup<T>(a: seq<T>, lead: seq<T>, m: seq<T>, trail: seq<T>, b: seq<T>)
    ensures a + (lead + m + trail) + b == (a + lead) + m + (trail + b)
  {
  }

  lemma AllSpaceAppend(p: string, q: string)
    requires AllSpace(p) && AllSpace(q)
    ensures AllSpace(p + q)
  {
    forall k | 0 <= k < |p + q| ensures IsSpace((p + q)[k]) {
      if k < |p| { assert (p + q)[k] == p[k]; } else { assert (p + q)[k] == q[k - |p|]; }
    }
  }

  /** Stripping text that neither starts nor ends with whitespace changes nothing. */
  lemma StripUnpadded(s: string)
    requires |s| > 0 && !IsSpace(s[0]) && !IsSpace(s[|s| - 1])
    ensures Strip(s) == s
  {
    assert LeadingSpace(s) == 0;
    assert TrailingSpace(s) == 0;
    assert s[0..|s|] == s;
  }

  /** `s.replace(c, "")`: every occurrence of `c` deleted, the rest kept in order. */
  function RemoveAll(s: string, c: char): (r: string)
    ensures c !in r
    ensures forall x :: x in r <==> x in s && x != c
    ensures |r| == |s| - multiset(s)[c]
  {
    if |s| == 0 then []
    else
      assert s == [s[0]] + s[1..];
      (if s[0] == c then [] else [s[0]]) + RemoveAll(s[1..], c)
  }

  /** Deleting a character acts piece by piece: it keeps the order of what remains. */
  lemma RemoveAllAppend(a: string, b: string, c: char)
    ensures RemoveAll(a + b, c) == RemoveAll(a, c) + RemoveAll(b, c)
  {
    RemoveAllIsDeleted(a + b, c);
    RemoveAllIsDeleted(a, c);
    RemoveAllIsDeleted(b, c);
    DeletedAppend(a, b, c);
  }

  /** RemoveAll's recursion without its contract, so that proofs about its shape stay small. */
  ghost function Deleted(s: string, c: char): string
  {
    if |s| == 0 then [] else (if s[0] == c then [] else [s[0]]) + Deleted(s[1..], c)
  }

  lemma {:induction false} RemoveAllIsDeleted(s: string, c: char)
    ensures RemoveAll(s, c) == Deleted(s, c)
  {
    if |s| > 0 {
      RemoveAllIsDeleted(s[1..], c);
    }
  }

  lemma {:induction false} DeletedAppend(a: string, b: string, c: char)
    ensures Deleted(a + b, c) == Deleted(a, c) + Deleted(b, c)
  {
    if |a| == 0 {
      assert a + b == b;
    } else {
      var t := a[1..];
      assert (a + b)[1..] == t + b;
      DeletedAppend(t, b, c);
      if a[0] != c {
        assert [a[0]] + (Deleted(t, c) + Deleted(b, c)) == ([a[0]] + Deleted(t, c)) + Deleted(b, c);
      }
    }
  }

  /** Deleting a character removes all its occurrences and keeps every other character as often as it was. */
  lemma {:induction false} RemoveAllCounts(s: string, c: char)
    ensures multiset(RemoveAll(s, c)) == multiset(s)[c := 0]
  {
    if |s| > 0 {
      var t := s[1..];
      RemoveAllCounts(t, c);
      assert s == [s[0]] + t;
      assert RemoveAll(s, c) == (if s[0] == c then [] else [s[0]]) + RemoveAll(t, c);
    }
  }

  /** Removing a character that does not occur changes nothing. */
  lemma {:induction false} RemoveAbsent(s: string, c: char)
    requires c !in s
    ensures RemoveAll(s, c) == s
  {
    if |s| > 0 {
      var t := s[1..];
      assert c !in t by {
        forall i | 0 <= i < |t| ensures t[i] != c { assert t[i] == s[i + 1]; }
      }
      RemoveAbsent(t, c);
      assert s[0] != c;
      assert RemoveAll(s, c) == [s[0]] + RemoveAll(t, c);
      assert [s[0]] + t == s;
    }
  }

  /** ASCII lower-casing of one character. */
  function LowerChar(c: char): char {
    if 'A' <= c <= 'Z' then (c as int - 'A' as int + 'a' as int) as char else c
  }

  /** `s.lower()` on the ASCII letters. */
  function Lower(s: string): string {
    seq(|s|, i requires 0 <= i < |s| => LowerChar(s[i]))
  }

  /** `sub` occurs in `s` starting at position `i`. */
  predicate OccursAt(s: string, sub: string, i: int) {
    0 <= i <= |s| - |sub| && s[i..i + |sub|] == sub
  }

  /** `sub in s`: some window of `s` equals `sub`. */
  function Contains(s: string, sub: string): (b: bool)
    ensures b <==> exists i :: OccursAt(s, sub, i)
  {
    if |s| < |sub| then false
    else if s[..|sub|] == sub then assert OccursAt(s, sub, 0); true
    else
      var b := Contains(s[1..], sub);
      assert forall i :: OccursAt(s[1..], sub, i) <==> OccursAt(s, sub, i + 1);
      assert !OccursAt(s, sub, 0);
      assert forall i :: OccursAt(s, sub, i) ==> OccursAt(s[1..], sub, i - 1);
      b
  }

  predicate IsDigit(c: char) { '0' <= c <= '9' }

  predicate AllDigits(s: string) {
    forall i :: 0 <= i < |s| ==> IsDigit(s[i])
  }

  /** The natural number a string of decimal digits denotes. */
  function DigitsValue(s: string): nat
    requires AllDigits(s)
  {
    if |s| == 0 then 0 else DigitsValue(s[..|s| - 1]) * 10 + (s[|s| - 1] as int - '0' as int)
  }

  function Pow10(n: nat): (p: nat)
    ensures p > 0
  {
    if n == 0 then 1 else 10 * Pow10(n - 1)
  }

  /** Position of the first `.` in `s`, or `|s|` when there is none. */
  function DotIndex(s: string): (k: nat)
    ensures k <= |s|
    ensures '.' !in s[..k]
    ensures k < |s| ==> s[k] == '.'
  {
    if |s| == 0 then 0
    else if s[0] == '.' then 0
    else
      var k := 1 + DotIndex(s[1..]);
      assert s[..k] == [s[0]] + s[1..][..k - 1];
      k
  }

  /** Unsigned decimal literal: digits, optionally followed by `.` and more digits, at least one digit. */
  function ParseUnsigned(s: string): Option<real> {
    var k := DotIndex(s);
    if k == |s| then
      if |s| > 0 && AllDigits(s) then Some(DigitsValue(s) as real) else None
    else
      var whole := s[..k];
      var frac := s[k + 1..];
      if AllDigits(whole) && AllDigits(frac) && |whole| + |frac| > 0 then
        Some(DigitsValue(whole) as real + DigitsValue(frac) as real / Pow10(|frac|) as real)
      else None
  }

  /** Only digits and at most the dot survive `ParseUnsigned`. */
  lemma ParseUnsignedChars(s: string)
    requires ParseUnsigned(s).Some?
    ensures forall i :: 0 <= i < |s| ==> IsDigit(s[i]) || s[i] == '.'
  {
    var k := DotIndex(s);
    forall i | 0 <= i < |s| ensures IsDigit(s[i]) || s[i] == '.' {
      if i < k {
        assert s[i] == s[..k][i];
      } else if i > k {
        assert s[i] == s[k + 1..][i - k - 1];
      }
    }
  }

  /** A plain digit string has no dot, so it is read as a whole number. */
  lemma ParseUnsignedDigits(s: string)
    ensures |s| > 0 && AllDigits(s) ==> ParseUnsigned(s) == Some(DigitsValue(s) as real)
  {
    if |s| > 0 && AllDigits(s) {
      var k := DotIndex(s);
      assert k < |s| ==> !IsDigit(s[k]);
    }
  }

  /**
   The text-to-number conversion shared by `float(...)` and `pd.to_numeric`:
   an optionally signed decimal literal; anything else is `None`.
   */
  function ParseDecimal(s: string): (r: Option<real>)
    ensures r.Some? ==> |s| > 0 && forall i :: 0 <= i < |s| ==> !IsSpace(s[i]) && s[i] != ','
    ensures |s| > 0 && AllDigits(s) ==> r == Some(DigitsValue(s) as real)
  {
    if |s| > 0 && s[0] == '-' then
      var u := ParseUnsigned(s[1..]);
      if u.Some? then
        ParseUnsignedChars(s[1..]);
        assert forall i :: 1 <= i < |s| ==> s[i] == s[1..][i - 1];
        Some(-u.value)
      else None
    else if |s| > 0 && s[0] == '+' then
      var u := ParseUnsigned(s[1..]);
      if u.Some? then
        ParseUnsignedChars(s[1..]);
        assert forall i :: 1 <= i < |s| ==> s[i] == s[1..][i - 1];
        u
      else None
    else
      ParseUnsignedDigits(s);
      var u := ParseUnsigned(s);
      if u.Some? then ParseUnsignedChars(s); u
      else None
  }

  /** Decimal rendering of a natural number, most significant digit first. */
  function ShowNat(n: nat): (s: string)
    ensures |s| > 0 && AllDigits(s)
  {
    if n < 10 then [('0' as int + n) as char]
    else ShowNat(n / 10) + [('0' as int + n % 10) as char]
  }

  /** Reading back a rendered natural number gives the number. */
  lemma {:induction false} ShowNatRoundTrip(n: nat)
    ensures DigitsValue(ShowNat(n)) == n
  {
    if n >= 10 {
      ShowNatRoundTrip(n / 10);
      var s := ShowNat(n);
      assert s[..|s| - 1] == ShowNat(n / 10);
    }
  }

  /** `float(str(n))` is `n`. */
  lemma ParseShowNat(n: nat)
    ensures ParseDecimal(ShowNat(n)) == Some(n as real)
  {
    ShowNatRoundTrip(n);
  }
}

=== FILE: wrappers.dfy ===
/** Failure-compatible wrappers used throughout the model. */
module Wrappers {

  /** A value that may be absent; `None` stands for a pandas NaN cell. */
  datatype Option<+T> = None | Some(value: T)

  /** The outcome of a step that can raise in `covidtenders.py`. */
  datatype Result<+R, +E> = Success(value: R) | Failure(error: E)
}
